=== FILE: README.md ===
# instacam, modelled in Dafny

instacam puts a webcam stream on an HTML5 canvas and styles it with CSS
filter effects. It comes in two builds:

- **the class build** (`dist/instacam.js`): an `Instacam` class whose options
  record merges the caller's options over a table of defaults and then changes
  one property at a time through validating setters;
- **the jQuery plugin** (`jquery.instacam.js`): a plugin object whose settings
  extend a table of defaults and are later read or overwritten, unchecked,
  through `$.fn.instacam`.

This project models the sequential core of both builds:

- the option records and their updates;
- the CSS filter string derived from the cosmetic options;
- the in-place per-pixel transform that runs a custom filter over an RGBA buffer;
- the argument handling of `snap` and `save`.

The modules are:

- `Js` (`js.dfy`): JavaScript values and operators: `typeof`, ToNumber,
  ToString, the loose `==` and property reads. It also holds `Object.assign`,
  the result and error types, and the canvas and video elements with the
  properties the library writes.
- `CssFilter` (`css_filter.dfy`): the filter string. It has one term per
  cosmetic option that differs from its default, in a fixed order. `Style` is
  the specification and `BuildStyle` builds it by successive appends. The
  lemmas give an independent description of the string: the entries of the
  non-default options, in order.
- `Pixels` (`pixels.dfy`): the nested y/x loop over a `width × height` RGBA
  buffer, held in an `array<byte>`. It is proved against the specification
  `Transformed`, the callback applied pixel by pixel to the original buffer.
- `EsBuild` (`es_build.dfy`):
  - the defaults, the merge and the setters as changes of the options record
    (`Check`, `Assign`);
  - the `Instacam` class with its setters and `_compute`;
  - the constructor (`Create`, `Open`);
  - `_filter` (`ApplyFilter`), `snap` and `save`.
- `JQueryPlugin` (`jquery_plugin.dfy`):
  - `$.extend`, and the `Plugin` class with `init`;
  - the per-frame style update with its `plugin.css` cache (`RefreshStyle`, `Frame`);
  - the inner `filter` (`Filter`) and the settings get/put of `$.fn.instacam` (`Configure`);
  - `snap` and `save`, and lemmas comparing the two builds.

Several things depend on the host and are parameters of the model:

- Number-to-text formatting, string-to-number parsing and the source text of
  functions form a `Formatter` record of functions.
- The custom filter is a function from a pixel to either a thrown error or four channels.
- The support check is a boolean parameter.
- The viewport's computed `transform` is a string parameter.

The whole build sits in one `eval` string, so every citation into it is
`dist/instacam.js:119`. The defaults are also at `dist/instacam.js:107` and in
`src/defaults.js`.

## Model

| member | source | states |
|---|---|---|
| Js.TypeOf | dist/instacam.js:119 | `typeof` gives "number", "string", "boolean", "function" or "undefined" exactly for the matching kind of value, and "object" exactly for null and plain objects |
| Js.ToNumber | dist/instacam.js:119 | the conversion used by `width <= 0`: a number is itself; undefined, a function and a plain object are NaN |
| Js.AtMostZero | dist/instacam.js:119 | `v <= 0` for the snap size: a number compares as itself, null and false count as 0 and pass, true, undefined, functions and plain objects never pass, and a string passes iff it parses to a number ≤ 0 |
| Js.LooselyEqual | jquery.instacam.js:113-125 | the loose `==` behind the plugin's `!=`: operands of one type are equal iff they are the same value (objects compared by their properties, see Left out); a string equals a number iff it parses to it; null equals only null and undefined |
| Js.LooselyEqualSymmetric | jquery.instacam.js:113-125 | the loose comparison does not depend on the order of its operands, so `plugin.css != filters` and `filters != plugin.css` agree |
| Js.Text | jquery.instacam.js:52-53 | ToString gives a string back unchanged, and of the modelled values only a string, a number or a function (through the host's formatting) can give the empty text |
| Js.Lookup | dist/instacam.js:119 | reading a property: a missing key reads as undefined, a present key gives its value |
| Js.Merge | dist/instacam.js:119 | `Object.assign({}, target, source)` has the keys of both; every key of the source, an undefined one included, takes the source's value; every other key keeps the target's |
| Js.MergeLookup | dist/instacam.js:119 | after `Object.assign({}, defaults, options)` every property of the options, an undefined one included, overrides the default, and other keys keep the default |
| CssFilter.KeyInjective | dist/instacam.js:119 | different cosmetic options are stored under different keys |
| CssFilter.BuildStyle | dist/instacam.js:119 | the ten successive `+=` of `_compute` build exactly `Style`: the terms of all cosmetic options in the fixed order |
| CssFilter.OrderCoversAll | dist/instacam.js:119 | every cosmetic option appears in the order of terms, and at exactly one place |
| CssFilter.NonDefaultMembers | dist/instacam.js:119 | an option is among the first `n` non-default options iff it is among the first `n` of the order and differs from its default |
| CssFilter.TermsAreNonDefaultEntries | dist/instacam.js:119 | concatenating the terms of the first `n` options equals concatenating the entries of the non-default ones among them, in order |
| CssFilter.Style | dist/instacam.js:119 | the filter string of `_compute` (and of a jQuery frame) is the concatenation, in the fixed order, of one space-terminated entry per option in the list of non-default options |
| CssFilter.NonDefaultIsDiffering | dist/instacam.js:119 | an option is in that list iff it differs from its default, so the filter string has a term exactly for those options |
| CssFilter.StyleEmptyIff | dist/instacam.js:119 | the filter string is empty iff every cosmetic option is at its default |
| CssFilter.EntriesEmpty | dist/instacam.js:119 | every term is written out (`name(value unit) `), so the entries concatenate to nothing only when there are none |
| CssFilter.ConcatOfOne | dist/instacam.js:119 | when all pieces but one are empty, the concatenation is that piece once its place in the order is reached |
| CssFilter.StyleOfOne | dist/instacam.js:119 | with exactly one option off its default, the filter string is that option's term alone |
| CssFilter.StyleFollowsDiffers | jquery.instacam.js:113-122 | two option records with the same cosmetic values and the same options off their defaults give the same filter string |
| CssFilter.StyleDependsOnlyOnCosmetics | dist/instacam.js:119 | the filter string reads only the ten cosmetic options and their defaults |
| CssFilter.ConcatPointwise | dist/instacam.js:119 | pieces that agree on every option concatenate to the same string |
| CssFilter.StyleIgnoresOtherKeys | dist/instacam.js:119 | writing a non-cosmetic key leaves the filter string unchanged |
| Pixels.Clamp | jquery.instacam.js:186-189 | a channel written into the clamped byte buffer keeps a value in 0..255 and is cut to 0 or 255 outside it |
| Pixels.RowMajor | jquery.instacam.js:168-172 | pixel `(x, y)` has index `width*y + x` below `width*height`, and that index gives back `x` and `y` |
| Pixels.OffsetInBounds | jquery.instacam.js:172 | the offset `((width*y)+x)*4` is a multiple of 4 and its four slots lie inside the `4*width*height` buffer |
| Pixels.OffsetsDistinct | jquery.instacam.js:172 | two pixels with the same offset are the same pixel |
| Pixels.EveryPixelVisited | jquery.instacam.js:168-172 | every pixel index below `width*height` is the offset of some `(x, y)` the loops visit |
| Pixels.ColumnAndRow | jquery.instacam.js:168-172 | after `y` full rows and `x` more pixels, the loop's pixel count gives back `x` and `y` |
| Pixels.SucceedsBelow | dist/instacam.js:119 | when the callback returned channels for the first `n` pixels, it did so for each of them |
| Pixels.SucceedsFromEach | dist/instacam.js:119 | when the callback returns channels for each of the first `n` pixels, the walk over them succeeds |
| Pixels.StorePixel | jquery.instacam.js:186-189 | the four writes change exactly slots `offset..offset+3`, to the four returned channels |
| Pixels.VisitPixel | jquery.instacam.js:172-189 | one iteration calls the callback on the pixel's original offset, coordinates and colour; it stores its channels or leaves the buffer as it was when the call throws |
| Pixels.Walk | jquery.instacam.js:168-191 | the nested loops visit pixels in row-major order; they stop at the first pixel whose call throws, with exactly the pixels before it rewritten |
| Pixels.HoldsTransformed | dist/instacam.js:119 | the loop invariant over the array is the specification `Transformed` of the buffer |
| Pixels.TransformPixels | dist/instacam.js:119 | the walk succeeds iff the callback returns channels for every pixel; then the buffer is `Transformed` of the original; otherwise it is rewritten up to the failing pixel, and the error is the one the call threw |
| Pixels.TransformedAt | dist/instacam.js:119 | after a successful walk, slot `k` of pixel `(x, y)` holds channel `k` returned for that pixel's original offset, coordinates and colour |
| Pixels.Transformed | dist/instacam.js:119 | the transformed buffer has the original's length |
| EsBuild.CosmeticDefaultsInTable | src/defaults.js:4-27 | the default each cosmetic option is compared against is the one in the table of defaults |
| EsBuild.CosmeticKeysAreDistinct | dist/instacam.js:119 | no cosmetic option is stored under the key of volume, mirror or filter |
| EsBuild.CheckCosmetic | dist/instacam.js:119 | opacity, invert, grayscale and sepia accept numbers in [0,1]; brightness, contrast, saturation and blur accept numbers ≥ 0; hue accepts [0,360]; url accepts any string; anything else fails with the setter's message |
| EsBuild.Check | dist/instacam.js:119 | volume accepts numbers in [0,100], mirror only booleans, filter null or a function; a failure carries the setter's own message |
| EsBuild.Assign | dist/instacam.js:119 | a setter throws exactly when its check fails, and then assigns nothing; otherwise its getter returns the value set (the volume getter returns a hundredth of it), and every other option is unchanged |
| EsBuild.AssignCosmeticTerms | dist/instacam.js:119 | after a successful cosmetic setter its option has a term iff the new value is `!==` the default, and every other term is unchanged |
| EsBuild.AssignOtherKeepsStyle | dist/instacam.js:119 | the volume, mirror and filter setters leave the filter string unchanged, so the filter setter needs no recompute |
| EsBuild.DefaultStyleIsEmpty | dist/instacam.js:107 | with every option at its default the filter string is empty |
| EsBuild.ConstructorStoresUnchecked | dist/instacam.js:119 | an out-of-range opacity given to the constructor, which the setter rejects, is stored and is the only term of the filter string |
| EsBuild.Given | dist/instacam.js:119 | a default parameter replaces an undefined argument and nothing else |
| EsBuild.Snap | dist/instacam.js:119 | `snap` throws iff the (defaulted) width or height is ≤ 0; otherwise it reads `(left, top, width, height)`, defaulting to `(0, 0, options.width, options.height)` |
| EsBuild.SnapExamples | dist/instacam.js:119 | `snap()` reads the whole surface and a zero width throws |
| EsBuild.SnapIgnoresOrigin | dist/instacam.js:119 | whether `snap` throws does not depend on left and top |
| EsBuild.Save | dist/instacam.js:119 | `save` asks for MIME "image/" followed by the format (png by default) and quality 1 by default |
| EsBuild.SaveExamples | dist/instacam.js:119 | `save()` asks for `image/png` at quality 1, `save('jpeg', 0.5)` for `image/jpeg` at 0.5 |
| EsBuild.MirrorTransform | dist/instacam.js:119 | mirror on gives exactly the computed transform followed by the flip ` scale(-1, 1)` (the flip alone when the computed transform is `none`); mirror off clears it |
| EsBuild.Instacam.constructor | dist/instacam.js:119 | the object holds the viewport and the options, and creates a fresh video element with the options' width and height |
| EsBuild.Instacam.Compute | dist/instacam.js:119 | `_compute` leaves the stored style equal to `Style` of the options and applies it to the viewport's filter |
| EsBuild.Instacam.Get | dist/instacam.js:119 | a getter returns the option as stored, undefined when missing; a cosmetic getter returns something other than its default exactly when the option has a term in the filter string |
| EsBuild.Instacam.SetCosmetic | dist/instacam.js:119 | a cosmetic setter changes the options exactly as `Assign` says, after which its getter returns the value set, or throws its error with the options unchanged; the style stays that of the options |
| EsBuild.Instacam.SetVolume | dist/instacam.js:119 | the volume setter changes the options as `Assign` says, after which the getter returns a hundredth of the value set, and gives the video element that volume; a rejected volume leaves the options unchanged |
| EsBuild.Instacam.SetMirror | dist/instacam.js:119 | the mirror setter accepts exactly booleans, stores the flag, which the getter then returns, and writes the computed transform followed by a flip (or nothing when off); a rejected value leaves the options unchanged |
| EsBuild.Instacam.SetFilter | dist/instacam.js:119 | the filter setter changes the options as `Assign` says, after which the getter returns the value set, and does not touch the style; a rejected value leaves the options unchanged |
| EsBuild.Instacam.ApplyFilter | dist/instacam.js:119 | `_filter` returns the same image, transformed pixel by pixel, or throws "Invalid filter" with the pixels before the failure rewritten |
| EsBuild.Create | dist/instacam.js:119 | the constructor merges the options; without support it only calls `unsupported` if that is a function; it throws on a missing or non-canvas viewport; otherwise it sizes the viewport, applies mirror through its setter and computes the style, giving a fresh object with a fresh video element; a rejected mirror leaves the viewport's transform and filter as they were, and `-webkit-filter` is never touched |
| EsBuild.Open | dist/instacam.js:119 | the viewport gets the options' width and height; a non-boolean mirror throws the setter's error; that throw leaves the viewport's transform and filter as they were; otherwise a fresh object holds the merged options, its fresh video element has the options' width and height, the viewport is mirrored as asked and the style is computed |
| JQueryPlugin.CosmeticDefaults | jquery.instacam.js:113-122 | the plugin compares its cosmetic settings with `!=` |
| JQueryPlugin.CosmeticDefaultsInTable | jquery.instacam.js:10-28 | those defaults are the ones in the plugin's table of defaults |
| JQueryPlugin.CosmeticDefaultsAgree | jquery.instacam.js:10-28 | both builds have the same default for every cosmetic option |
| JQueryPlugin.Extend | jquery.instacam.js:34 | `$.extend({}, target, source)` has the target's keys and the source's defined ones; each source property that is not undefined overrides, every other key keeps the target's value |
| JQueryPlugin.ExtendLookup | jquery.instacam.js:34 | after `$.extend({}, defaults, options)` a setting is the caller's unless missing or undefined, otherwise the default |
| JQueryPlugin.ExtendIsMergeWithoutUndefined | jquery.instacam.js:34 | without undefined options, `$.extend` and `Object.assign` give the same settings |
| JQueryPlugin.UndefinedOptionKeepsDefault | jquery.instacam.js:34 | an explicitly undefined width keeps the default 400 in the plugin, but replaces it in the class build |
| JQueryPlugin.Written | jquery.instacam.js:125-142 | a frame writes nothing exactly when its filter string is non-empty and loosely equal to the cached one; whatever it writes is that filter string |
| JQueryPlugin.WrittenCaches | jquery.instacam.js:125-142 | the first frame writes its filter string; a cached non-empty string is not written again; an empty string is written on every frame |
| JQueryPlugin.Plugin.constructor | jquery.instacam.js:31-53 | `init` extends the defaults; without support it calls `unsupported` if that is a function and leaves the viewport untouched; otherwise it sets the viewport's width and height attributes to the settings as text |
| JQueryPlugin.Plugin.RefreshStyle | jquery.instacam.js:113-142 | after a frame the cache and both filter properties hold the filter string of the settings; when the cache already held it, and it is not empty, the viewport is not written |
| JQueryPlugin.Plugin.Filter | jquery.instacam.js:164-194 | `filter` returns the same image transformed pixel by pixel; an exception of the callback leaves unwrapped, with the pixels before it rewritten |
| JQueryPlugin.Plugin.Frame | jquery.instacam.js:95-142 | a frame with a custom filter runs it: on success the image is `Transformed` pixel by pixel; an exception from the filter is the frame's error, leaves the pixels before it rewritten, and ends the frame before the style update; otherwise the cache holds the new filter string |
| JQueryPlugin.Plugin.Configure | jquery.instacam.js:228-246 | on an existing plugin, an object overwrites exactly its own keys of the settings without validation and returns nothing; null changes nothing (`$.each` as in jQuery 3); any other argument returns `settings[String(arg)]` and changes nothing |
| JQueryPlugin.Assigned | jquery.instacam.js:239-241 | each `$.each` step assigns one more of the given keys |
| JQueryPlugin.ConfigureStoresUnchecked | jquery.instacam.js:238-243 | `$.fn.instacam({opacity: 5})` on an existing plugin returns nothing and stores the opacity 5, which the class build's setter rejects, so the next frame's filter string has an opacity term |
| JQueryPlugin.Snap | jquery.instacam.js:197-208 | with any argument undefined, `snap` reads `(0, 0, settings.width, settings.height)`; otherwise the arguments pass through, unchecked |
| JQueryPlugin.SnapsAgree | jquery.instacam.js:197-208 | with all four arguments given and a positive width and height, both builds read the same area |
| JQueryPlugin.SnapsDiffer | jquery.instacam.js:197-208 | a width given alone is ignored by the plugin but used by the class build; a negative width is passed unchecked to `getImageData` by the plugin and refused by the class build |
| JQueryPlugin.Save | jquery.instacam.js:211-221 | `save` defaults the format to png and the quality to 1 |
| JQueryPlugin.SavesAgree | jquery.instacam.js:211-221 | both builds' `save` make the same request of the encoder for every argument |
| JQueryPlugin.StylesAgree | jquery.instacam.js:113-122 | when each cosmetic setting has the type of its default, the plugin's loose `!=` and the class's `!==` give the same filter string |
| JQueryPlugin.StringOpacityDiffers | jquery.instacam.js:113 | an opacity of "1" is loosely equal to the default 1: the plugin writes no filter while the class build writes an opacity term |

## Left out

- Capturing the stream is not modelled: `getUserMedia`, its promise or
  callbacks, `done` and `fail`, and the `requestAnimationFrame` loop are
  asynchronous browser input/output. A frame of the jQuery loop is modelled as
  one call of `JQueryPlugin.Plugin.Frame`. The class build's loop only calls
  `_filter`, which is `ApplyFilter`.
- Drawing and encoding are left out (`drawImage`, `getImageData`,
  `putImageData`, `toDataURL`). `snap` and `save` give the request they would
  make: a `Rect` or an `Export`.
- Of the class build's hidden video element only the width, height and
  volume are kept; its `display`, `autoplay`, stream source and DOM insertion
  are not modelled, and neither are the buffer canvas of either build nor the
  plugin's video element.
- The support checks (`src/support.js`, and the `getUserMedia` and
  `requestAnimationFrame` detection) are taken as a boolean parameter.
- The mirror transform reads `getComputedStyle`. The computed transform is a
  string parameter of `SetMirror`.
- JavaScript numbers are reals. NaN and infinities are not values of the
  model. A NaN option would pass every setter's check, because the range
  comparisons are all false for NaN. Number-to-text and string-to-number are abstract
  functions of the `Formatter`.
- Js.Value: a plain object is its own properties, so two distinct objects
  with the same properties are equal here, while JavaScript compares objects
  by identity. No comparison of the core has an object operand: the defaults
  are numbers and strings, and the filter cache is a string or undefined.
- Js.LooselyEqual: an object or function compared with a primitive would go
  through ToPrimitive, which runs user code; such a pair is taken as unequal.
- Js.ToNumber: an object or function is NaN; ToPrimitive, which would call a
  user `valueOf` or `toString`, is not modelled.
- Js.Text: an object is always "[object Object]". ToString through
  ToPrimitive is not modelled, so an array (`String([])` is "") or an object
  with its own `toString` gives other text in the source: `{url: []}` gives
  the term `url() ` there and `url([object Object]) ` here.
- Js.AtMostZero: so `<=` on an object is false, whereas an object whose
  `valueOf` returns 0 would pass the source's `width <= 0` test.
- The callback's channels are stored with integer clamping to 0..255. The
  rounding of non-integer results by the clamped byte array is not modelled.
- Property reads see only own properties. Keys inherited from
  `Object.prototype` (for example `settings['toString']`) read as undefined here.
- `$.each` over an array-like object (one with a numeric `length`) walks
  indices, not keys. `Configure` treats every object as a plain object.
- The element-by-element dispatch of `$.fn.instacam` and the `data('instacam')`
  store are not modelled. `Plugin.constructor` is the first call on an
  element, and `Configure` is a later call.
- EsBuild.Instacam.ApplyFilter, JQueryPlugin.Plugin.Filter and
  JQueryPlugin.Plugin.Frame require the width and height options to be the
  numbers giving the image's size, a whole number each. This excludes
  fractional sizes: for a width of 400.5, `getImageData` reads 400 columns
  while the loop runs 401 and computes offsets that are not whole. It also
  excludes sizes given as strings such as "400", which the source treats as
  400.
- EsBuild.Create: on an unsupported platform the source constructor returns
  early, yet `new Instacam(...)` still yields an object holding the merged
  options but no viewport and no video element. Its accessors stay callable:
  a valid cosmetic value is stored and then `_compute` throws a TypeError on
  the missing viewport, the mirror setter throws a TypeError from
  `getComputedStyle`, and `snap` and `save` throw TypeErrors. The model's
  `Unsupported` result keeps only the options and whether `unsupported` was
  called; this half-built object and its setters are not modelled.
- EsBuild.Create takes the viewport as a DOM element or null (null also
  standing for undefined). A value with no `nodeName`, such as a string or a
  jQuery wrapper, makes the source throw a TypeError from
  `viewport.nodeName.toLowerCase()` instead of the invalid-viewport error;
  that path is not modelled.
- JQueryPlugin.Plugin.Configure follows `$.each` of jQuery 3 and later, where
  `$.each(null, …)` visits nothing. jQuery 1.x and 2.x read `null.length` and
  throw a TypeError; the source does not pin a jQuery version.
- EsBuild.Instacam.SetVolume, SetMirror and SetFilter: their `Valid()` is
  stated as preserved (`old(Valid()) ==> Valid()`), because the setters do not
  need it beforehand.
- Running the callbacks `unsupported`, `done` and `fail` is not modelled
  beyond recording whether `unsupported` is called.
- The webpack bootstrap, the demo page and the build configuration are not
  part of this model.

=== FILE: css_filter.dfy ===
/** The derived CSS filter string: one term per cosmetic option whose value is
    not its default, in a fixed order. Both builds compute it the same way
    (`_compute` in the class build, the per-frame `filters` string in the
    jQuery plugin); each compares against its own table of defaults. */
module CssFilter {
  import opened Js

  /** The cosmetic options, one per term of the filter string. */
  datatype Cosmetic =
    | Opacity | Brightness | Contrast | Saturation | Hue
    | Invert | Grayscale | Sepia | Blur | Url

  /** The order in which the terms are written. */
  const ORDER: seq<Cosmetic> :=
    [Opacity, Brightness, Contrast, Saturation, Hue, Invert, Grayscale, Sepia, Blur, Url]

  /** The option key that holds the value of `c`. */
  function Key(c: Cosmetic): string {
    match c
    case Opacity => "opacity"
    case Brightness => "brightness"
    case Contrast => "contrast"
    case Saturation => "saturation"
    case Hue => "hue"
    case Invert => "invert"
    case Grayscale => "grayscale"
    case Sepia => "sepia"
    case Blur => "blur"
    case Url => "url"
  }

  /** Different options are kept under different keys. */
  lemma KeyInjective(c1: Cosmetic, c2: Cosmetic)
    ensures Key(c1) == Key(c2) ==> c1 == c2
  {
  }

  /** The CSS filter function that renders `c`. */
  function Name(c: Cosmetic): string {
    match c
    case Opacity => "opacity"
    case Brightness => "brightness"
    case Contrast => "contrast"
    case Saturation => "saturate"
    case Hue => "hue-rotate"
    case Invert => "invert"
    case Grayscale => "grayscale"
    case Sepia => "sepia"
    case Blur => "blur"
    case Url => "url"
  }

  /** The unit written after the value. */
  function Unit(c: Cosmetic): string {
    match c
    case Hue => "deg"
    case Blur => "px"
    case _ => ""
  }

  /** How a build compares an option with its default: `!==`, or `!=` with
      the formatter that converts strings to numbers. */
  datatype Comparison = Strict | Loose(fmt: Formatter)

  /** A build's defaults for the ten cosmetic options, as its table of
      defaults holds them. */
  datatype Defaults = Defaults(
    cmp: Comparison,
    opacity: Value, brightness: Value, contrast: Value, saturation: Value, hue: Value,
    invert: Value, grayscale: Value, sepia: Value, blur: Value, url: Value)
  {
    /** The default of option `c`. */
    function Of(c: Cosmetic): Value {
      match c
      case Opacity => opacity
      case Brightness => brightness
      case Contrast => contrast
      case Saturation => saturation
      case Hue => hue
      case Invert => invert
      case Grayscale => grayscale
      case Sepia => sepia
      case Blur => blur
      case Url => url
    }
  }

  /** True iff option `c` of `o` is not equal to its default `d.Of(c)`, under
      the build's comparison. */
  predicate Differs(o: map<string, Value>, d: Defaults, c: Cosmetic) {
    match d.cmp
    case Strict => Lookup(o, Key(c)) != d.Of(c)
    case Loose(fmt) => !LooselyEqual(fmt, Lookup(o, Key(c)), d.Of(c))
  }

  /** The space-terminated term for `c`, e.g. `hue-rotate(90deg) `. */
  function Entry(o: map<string, Value>, c: Cosmetic, fmt: Formatter): (t: string)
  {
    Name(c) + "(" + Text(fmt, Lookup(o, Key(c))) + Unit(c) + ") "
  }

  /** The term for `c` if it is not at its default, otherwise nothing. */
  function Term(o: map<string, Value>, d: Defaults, c: Cosmetic, fmt: Formatter): string {
    if Differs(o, d, c) then Entry(o, c, fmt) else ""
  }

  /** The filter string of the options `o` against the defaults `d`: the
      terms of all options, concatenated in the order `ORDER`, which are the
      entries of exactly the options that differ from their defaults. */
  function Style(o: map<string, Value>, d: Defaults, fmt: Formatter): (s: string)
    ensures s == Entries(o, NonDefault(o, d, |ORDER|), fmt)
  {
    TermsAreNonDefaultEntries(o, d, |ORDER|, fmt);
    Concat(Terms(o, d, fmt), |ORDER|)
  }

  /** Builds the filter string by successive appends, one per option. */
  method BuildStyle(o: map<string, Value>, d: Defaults, fmt: Formatter) returns (s: string)
    ensures s == Style(o, d, fmt)
  {
    s := Term(o, d, Opacity, fmt);
    s := s + Term(o, d, Brightness, fmt);
    s := s + Term(o, d, Contrast, fmt);
    s := s + Term(o, d, Saturation, fmt);
    s := s + Term(o, d, Hue, fmt);
    s := s + Term(o, d, Invert, fmt);
    s := s + Term(o, d, Grayscale, fmt);
    s := s + Term(o, d, Sepia, fmt);
    s := s + Term(o, d, Blur, fmt);
    s := s + Term(o, d, Url, fmt);
    ConcatAll(Terms(o, d, fmt));
  }

  // ----- an independent description: the non-default options, in order -----

  /** The place of each option in the order. */
  function Position(c: Cosmetic): (i: nat)
    ensures i < |ORDER| && ORDER[i] == c
  {
    match c
    case Opacity => 0
    case Brightness => 1
    case Contrast => 2
    case Saturation => 3
    case Hue => 4
    case Invert => 5
    case Grayscale => 6
    case Sepia => 7
    case Blur => 8
    case Url => 9
  }

  /** Every cosmetic option has its place in the order, and only one. */
  lemma OrderCoversAll(c: Cosmetic)
    ensures c in ORDER
    ensures forall i :: 0 <= i < |ORDER| && ORDER[i] == c ==> i == Position(c)
  {
  }

  /** The first `n` options of the order that are not at their default, in order. */
  function NonDefault(o: map<string, Value>, d: Defaults, n: nat): (r: seq<Cosmetic>)
    requires n <= |ORDER|
  {
    if n == 0 then []
    else
      var c := ORDER[n - 1];
      NonDefault(o, d, n - 1) + (if Differs(o, d, c) then [c] else [])
  }

  lemma {:induction false} NonDefaultMembers(o: map<string, Value>, d: Defaults, n: nat)
    requires n <= |ORDER|
    ensures forall c :: c in NonDefault(o, d, n) <==> c in ORDER[..n] && Differs(o, d, c)
  {
    if n > 0 {
      NonDefaultMembers(o, d, n - 1);
      assert ORDER[..n] == ORDER[..n - 1] + [ORDER[n - 1]];
    }
  }

  /** The entries of `cs`, concatenated in order. */
  function Entries(o: map<string, Value>, cs: seq<Cosmetic>, fmt: Formatter): string {
    if cs == [] then "" else Entries(o, cs[..|cs| - 1], fmt) + Entry(o, cs[|cs| - 1], fmt)
  }

  /** The pieces `piece(c)` of the first `n` options of the order, concatenated. */
  function Concat(piece: Cosmetic -> string, n: nat): string
    requires n <= |ORDER|
  {
    if n == 0 then "" else Concat(piece, n - 1) + piece(ORDER[n - 1])
  }

  /** The term of each option, as a piece for `Concat`. */
  function Terms(o: map<string, Value>, d: Defaults, fmt: Formatter): Cosmetic -> string {
    c => Term(o, d, c, fmt)
  }

  lemma EntriesSnoc(o: map<string, Value>, cs: seq<Cosmetic>, c: Cosmetic, fmt: Formatter)
    ensures Entries(o, cs + [c], fmt) == Entries(o, cs, fmt) + Entry(o, c, fmt)
  {
  }

  lemma {:induction false} TermsAreNonDefaultEntries(o: map<string, Value>, d: Defaults, n: nat, fmt: Formatter)
    requires n <= |ORDER|
    ensures Concat(Terms(o, d, fmt), n) == Entries(o, NonDefault(o, d, n), fmt)
  {
    if n > 0 {
      TermsAreNonDefaultEntries(o, d, n - 1, fmt);
      var prefix, c := NonDefault(o, d, n - 1), ORDER[n - 1];
      if Differs(o, d, c) {
        EntriesSnoc(o, prefix, c, fmt);
      } else {
        assert prefix + [] == prefix;
      }
    }
  }

  /** The pieces of the first three options, written out. */
  lemma ConcatThree(piece: Cosmetic -> string)
    ensures Concat(piece, 3) == piece(Opacity) + piece(Brightness) + piece(Contrast)
  {
    assert Concat(piece, 1) == piece(Opacity);
    assert Concat(piece, 2) == Concat(piece, 1) + piece(Brightness);
  }

  /** The pieces of the first five options, written out. */
  lemma ConcatFive(piece: Cosmetic -> string)
    ensures Concat(piece, 5)
      == piece(Opacity) + piece(Brightness) + piece(Contrast) + piece(Saturation) + piece(Hue)
  {
    ConcatThree(piece);
    assert Concat(piece, 4) == Concat(piece, 3) + piece(Saturation);
  }

  /** The pieces of the first seven options, written out. */
  lemma ConcatSeven(piece: Cosmetic -> string)
    ensures Concat(piece, 7)
      == piece(Opacity) + piece(Brightness) + piece(Contrast) + piece(Saturation) + piece(Hue)
         + piece(Invert) + piece(Grayscale)
  {
    ConcatFive(piece);
    assert Concat(piece, 6) == Concat(piece, 5) + piece(Invert);
  }

  /** Concatenating the pieces of all options in the order is writing them
      out one after the other. */
  lemma ConcatAll(piece: Cosmetic -> string)
    ensures Concat(piece, |ORDER|)
      == piece(Opacity) + piece(Brightness) + piece(Contrast) + piece(Saturation) + piece(Hue)
         + piece(Invert) + piece(Grayscale) + piece(Sepia) + piece(Blur) + piece(Url)
  {
    ConcatSeven(piece);
    assert Concat(piece, 8) == Concat(piece, 7) + piece(Sepia);
    assert Concat(piece, 9) == Concat(piece, 8) + piece(Blur);
  }

  /** An option is among the non-default ones of the whole order if and only
      if it differs from its default. */
  lemma NonDefaultIsDiffering(o: map<string, Value>, d: Defaults)
    ensures forall c :: c in NonDefault(o, d, |ORDER|) <==> Differs(o, d, c)
  {
    NonDefaultMembers(o, d, |ORDER|);
    assert ORDER[..|ORDER|] == ORDER;
    forall c ensures c in ORDER {
      OrderCoversAll(c);
    }
  }

  /** The filter string is empty exactly when every cosmetic option is at its
      default. */
  lemma StyleEmptyIff(o: map<string, Value>, d: Defaults, fmt: Formatter)
    ensures Style(o, d, fmt) == "" <==> forall c :: !Differs(o, d, c)
  {
    var nd := NonDefault(o, d, |ORDER|);
    NonDefaultIsDiffering(o, d);
    EntriesEmpty(o, nd, fmt);
    if nd != [] {
      assert nd[0] in nd;
    }
  }

  /** Every entry is written out, so entries concatenate to nothing only
      when there are none. */
  lemma EntriesEmpty(o: map<string, Value>, cs: seq<Cosmetic>, fmt: Formatter)
    ensures Entries(o, cs, fmt) == "" <==> cs == []
  {
  }

  /** When every piece but that of `c` is empty, concatenating the pieces
      gives the piece of `c`, once `c` has been reached. */
  lemma {:induction false} ConcatOfOne(piece: Cosmetic -> string, c: Cosmetic, n: nat)
    requires n <= |ORDER|
    requires forall c' :: c' != c ==> piece(c') == ""
    ensures Concat(piece, n) == if Position(c) < n then piece(c) else ""
  {
    if n > 0 {
      ConcatOfOne(piece, c, n - 1);
      OrderCoversAll(c);
      if ORDER[n - 1] == c {
        assert Concat(piece, n) == "" + piece(c);
      } else {
        assert Concat(piece, n) == Concat(piece, n - 1) + "";
      }
    }
  }

  /** When a single option is off its default, the filter string is that
      option's term alone. */
  lemma StyleOfOne(o: map<string, Value>, d: Defaults, c: Cosmetic, fmt: Formatter)
    requires Differs(o, d, c)
    requires forall c' :: c' != c ==> !Differs(o, d, c')
    ensures Style(o, d, fmt) == Entry(o, c, fmt)
  {
    ConcatOfOne(Terms(o, d, fmt), c, |ORDER|);
  }

  /** The filter string is fixed by the values of the ten cosmetic options
      and which of them differ from their defaults. */
  lemma StyleFollowsDiffers(o1: map<string, Value>, d1: Defaults,
                            o2: map<string, Value>, d2: Defaults, fmt: Formatter)
    requires forall c :: Lookup(o1, Key(c)) == Lookup(o2, Key(c))
    requires forall c :: Differs(o1, d1, c) == Differs(o2, d2, c)
    ensures Style(o1, d1, fmt) == Style(o2, d2, fmt)
  {
    ConcatPointwise(Terms(o1, d1, fmt), Terms(o2, d2, fmt), |ORDER|);
  }

  /** The filter string reads only the ten cosmetic options and their defaults. */
  lemma StyleDependsOnlyOnCosmetics(o1: map<string, Value>, d1: Defaults,
                                    o2: map<string, Value>, d2: Defaults, fmt: Formatter)
    requires forall c :: Lookup(o1, Key(c)) == Lookup(o2, Key(c))
    requires d1.cmp == d2.cmp && forall c :: d1.Of(c) == d2.Of(c)
    ensures Style(o1, d1, fmt) == Style(o2, d2, fmt)
  {
    StyleFollowsDiffers(o1, d1, o2, d2, fmt);
  }

  /** Pieces that agree on every option concatenate to the same string. */
  lemma {:induction false} ConcatPointwise(p1: Cosmetic -> string, p2: Cosmetic -> string, n: nat)
    requires n <= |ORDER|
    requires forall c :: p1(c) == p2(c)
    ensures Concat(p1, n) == Concat(p2, n)
  {
    if n > 0 {
      ConcatPointwise(p1, p2, n - 1);
    }
  }

  /** Writing a key that is not a cosmetic option leaves the filter string as it is. */
  lemma StyleIgnoresOtherKeys(o: map<string, Value>, d: Defaults, fmt: Formatter, k: string, v: Value)
    requires forall c :: Key(c) != k
    ensures Style(o[k := v], d, fmt) == Style(o, d, fmt)
  {
    StyleDependsOnlyOnCosmetics(o[k := v], d, o, d, fmt);
  }
}

=== FILE: es_build.dfy ===
/** The ES-class build: the `Instacam` class, whose options record is built
    once by merging the caller's options over the defaults and is then changed
    one property at a time through validating setters. Every cosmetic setter
    recomputes the CSS filter string of the viewport. */
module EsBuild {
  import opened Js
  import opened CssFilter
  import opened Pixels

  /** The default options of the class build. */
  const DEFAULTS: map<string, Value> := map[
    "width" := Num(400.0), "height" := Num(300.0), "camera" := Bool(true),
    "framerate" := Num(30.0), "ratio" := Num(4.0 / 3.0), "sound" := Bool(false),
    "volume" := Num(100.0), "mirror" := Bool(false),
    "opacity" := Num(1.0), "brightness" := Num(1.0), "contrast" := Num(1.0),
    "saturation" := Num(0.0), "hue" := Num(0.0), "invert" := Num(0.0),
    "grayscale" := Num(0.0), "sepia" := Num(0.0), "blur" := Num(0.0), "url" := Str(""),
    "filter" := Null, "done" := Null, "fail" := Null, "unsupported" := Null]

  /** The defaults of the cosmetic options, the values `_compute` compares
      against with `!==`. */
  const COSMETIC_DEFAULTS := CssFilter.Defaults(
    Strict,
    Num(1.0), Num(1.0), Num(1.0), Num(0.0), Num(0.0),
    Num(0.0), Num(0.0), Num(0.0), Num(0.0), Str(""))

  /** They are what the table of defaults holds under each cosmetic option's key. */
  lemma CosmeticDefaultsInTable(c: CssFilter.Cosmetic)
    ensures Key(c) in DEFAULTS && DEFAULTS[Key(c)] == COSMETIC_DEFAULTS.Of(c)
  {
  }

  // ----- the validating setters, as changes of the options record -----

  /** The properties that have a validating setter. */
  datatype Property = Cosmetic(c: CssFilter.Cosmetic) | Volume | Mirror | CustomFilter

  /** The option that a property's setter writes. */
  function PropertyKey(p: Property): string {
    match p
    case Cosmetic(c) => Key(c)
    case Volume => "volume"
    case Mirror => "mirror"
    case CustomFilter => "filter"
  }

  /** The keys of the cosmetic options are not those of volume, mirror and filter. */
  lemma CosmeticKeysAreDistinct(c: CssFilter.Cosmetic)
    ensures Key(c) != "volume" && Key(c) != "mirror" && Key(c) != "filter"
  {
  }

  /** The message of the error a setter throws on a value it rejects. */
  function Complaint(p: Property): string {
    match p
    case Cosmetic(Opacity) => "Invalid opacity, you need to give a number between 0 and 1"
    case Cosmetic(Brightness) => "Invalid brightness, you need to give a number above 0"
    case Cosmetic(Contrast) => "Invalid contrast, you need to give a number above 0"
    case Cosmetic(Saturation) => "Invalid saturation, you need to give a number above 0"
    case Cosmetic(Hue) => "Invalid hue, you need to give a number between 0 and 360"
    case Cosmetic(Invert) => "Invalid invert, you need to give a number between 0 and 1"
    case Cosmetic(Grayscale) => "Invalid grayscale, you need to give a number between 0 and 1"
    case Cosmetic(Sepia) => "Invalid sepia, you need to give a number between 0 and 1"
    case Cosmetic(Blur) => "Invalid blur, you need to give a number above 0"
    case Cosmetic(Url) => "Invalid url, you need to give a string"
    case Volume => "Invalid volume, you need to give a number between 0 and 100"
    case Mirror => "Invalid mirror mode, you need to give a boolean to enable or disable the mirror mode"
    case CustomFilter => "Invalid filter, you need to give a function or null to disable the custom filtering"
  }

  /** The cosmetic options whose setter takes a fraction. */
  const FRACTIONS: set<CssFilter.Cosmetic> := {Opacity, Invert, Grayscale, Sepia}
  /** The cosmetic options whose setter takes any number from 0 up. */
  const UNBOUNDED: set<CssFilter.Cosmetic> := {Brightness, Contrast, Saturation, Blur}

  /** The type and range test of the setter of a cosmetic option. */
  function CheckCosmetic(c: CssFilter.Cosmetic, v: Value): (r: Outcome)
    ensures r.Fail? ==> r.error == Error(Complaint(Cosmetic(c)))
    ensures c in FRACTIONS ==> (r.Pass? <==> v.Num? && 0.0 <= v.n <= 1.0)
    ensures c in UNBOUNDED ==> (r.Pass? <==> v.Num? && 0.0 <= v.n)
    ensures c == Hue ==> (r.Pass? <==> v.Num? && 0.0 <= v.n <= 360.0)
    ensures c == Url ==> (r.Pass? <==> v.Str?)
  {
    // `typeof v` is "number" or "string" exactly when `v` is a `Num` or a
    // `Str` (see `TypeOf`).
    var rejected :=
      match c
      case Opacity | Invert | Grayscale | Sepia => !v.Num? || v.n < 0.0 || v.n > 1.0
      case Brightness | Contrast | Saturation | Blur => !v.Num? || v.n < 0.0
      case Hue => !v.Num? || v.n < 0.0 || v.n > 360.0
      case Url => !v.Str?;
    if rejected then Fail(Error(Complaint(Cosmetic(c)))) else Pass
  }

  /** The type and range test each setter makes before it assigns anything. */
  function Check(p: Property, v: Value): (r: Outcome)
    ensures r.Fail? ==> r.error == Error(Complaint(p))
    ensures p == Volume ==> (r.Pass? <==> v.Num? && 0.0 <= v.n <= 100.0)
    ensures p == Mirror ==> (r.Pass? <==> v.Bool?)
    ensures p == CustomFilter ==> (r.Pass? <==> v.Null? || v.Fn?)
  {
    match p
    case Cosmetic(c) => CheckCosmetic(c, v)
    case Volume =>
      if !v.Num? || v.n < 0.0 || v.n > 100.0 then Fail(Error(Complaint(p))) else Pass
    case Mirror =>
      if !v.Bool? then Fail(Error(Complaint(p))) else Pass
    case CustomFilter =>
      if v != Null && !v.Fn? then Fail(Error(Complaint(p))) else Pass
  }

  /** What a setter does to the options record: it throws before assigning
      anything, or it writes the value into its own option and no other. The
      volume setter stores a hundredth of the value it accepts, so its getter
      does not return what was set. */
  function Assign(o: map<string, Value>, p: Property, v: Value): (r: Result<map<string, Value>>)
    ensures r.Ok? <==> Check(p, v).Pass?
    ensures r.Err? ==> r.error == Error(Complaint(p))
    ensures r.Ok? && p != Volume ==> Lookup(r.value, PropertyKey(p)) == v
    ensures r.Ok? && p == Volume ==> Lookup(r.value, "volume") == Num(v.n / 100.0)
    ensures r.Ok? ==> forall k :: k != PropertyKey(p) ==> Lookup(r.value, k) == Lookup(o, k)
  {
    match Check(p, v)
    case Fail(e) => Err(e)
    case Pass => Ok(o[PropertyKey(p) := if p == Volume then Num(v.n / 100.0) else v])
  }

  /** A successful cosmetic setter adds a term for its option exactly when the
      new value is not the default, and leaves every other term of the filter
      string as it was. */
  lemma AssignCosmeticTerms(o: map<string, Value>, c: CssFilter.Cosmetic, v: Value, fmt: Formatter)
    requires Assign(o, Cosmetic(c), v).Ok?
    ensures var o' := Assign(o, Cosmetic(c), v).value;
      (Differs(o', COSMETIC_DEFAULTS, c) <==> v != COSMETIC_DEFAULTS.Of(c))
      && forall c' :: c' != c ==> Term(o', COSMETIC_DEFAULTS, c', fmt) == Term(o, COSMETIC_DEFAULTS, c', fmt)
  {
    var o' := Assign(o, Cosmetic(c), v).value;
    forall c' | c' != c
      ensures Term(o', COSMETIC_DEFAULTS, c', fmt) == Term(o, COSMETIC_DEFAULTS, c', fmt)
    {
      KeyInjective(c, c');
    }
    OrderCoversAll(c);
  }

  /** The volume, mirror and filter setters leave the filter string as it is,
      which is why they do not recompute it. */
  lemma AssignOtherKeepsStyle(o: map<string, Value>, p: Property, v: Value, fmt: Formatter)
    requires !p.Cosmetic? && Assign(o, p, v).Ok?
    ensures Style(Assign(o, p, v).value, COSMETIC_DEFAULTS, fmt) == Style(o, COSMETIC_DEFAULTS, fmt)
  {
    var o' := Assign(o, p, v).value;
    forall c ensures Lookup(o', Key(c)) == Lookup(o, Key(c)) {
      assert Key(c) != PropertyKey(p) by { CosmeticKeysAreDistinct(c); }
    }
    StyleDependsOnlyOnCosmetics(o', COSMETIC_DEFAULTS, o, COSMETIC_DEFAULTS, fmt);
  }

  /** With every option at its default the filter string is empty. */
  lemma DefaultStyleIsEmpty(fmt: Formatter)
    ensures Style(DEFAULTS, COSMETIC_DEFAULTS, fmt) == ""
  {
    forall c ensures !Differs(DEFAULTS, COSMETIC_DEFAULTS, c) {
      CosmeticDefaultsInTable(c);
    }
    StyleEmptyIff(DEFAULTS, COSMETIC_DEFAULTS, fmt);
  }

  /** Options given to the constructor are merged without validation: an
      opacity of 5, which the setter refuses, is stored and styled. */
  lemma ConstructorStoresUnchecked(fmt: Formatter)
    ensures Check(Cosmetic(Opacity), Num(5.0)).Fail?
    ensures var o := Merge(DEFAULTS, map["opacity" := Num(5.0)]);
      Lookup(o, "opacity") == Num(5.0) && Style(o, COSMETIC_DEFAULTS, fmt) == Entry(o, Opacity, fmt)
  {
    var user := map["opacity" := Num(5.0)];
    var o := Merge(DEFAULTS, user);
    forall c | c != Opacity ensures !Differs(o, COSMETIC_DEFAULTS, c) {
      KeyInjective(c, Opacity);
      MergeLookup(DEFAULTS, user, Key(c));
      CosmeticDefaultsInTable(c);
    }
    MergeLookup(DEFAULTS, user, "opacity");
    StyleOfOne(o, COSMETIC_DEFAULTS, Opacity, fmt);
  }

  /** The transform the mirror setter writes: the viewport's computed
      transform (none counting as empty) followed by a horizontal flip, or
      nothing when mirroring is off. */
  function MirrorTransform(on: bool, computed: string): (t: string)
    ensures !on ==> t == ""
    ensures on ==> |t| >= |FLIP| && t[|t| - |FLIP|..] == FLIP
    ensures on && computed != "none" ==> |t| == |computed| + |FLIP| && t[..|computed|] == computed
    ensures on && computed == "none" ==> t == FLIP
  {
    var prior := if computed != "none" then computed else "";
    if on then prior + FLIP else ""
  }

  /** The horizontal flip the mirror mode appends. */
  const FLIP := " scale(-1, 1)"

  // ----- snapshot and export -----

  /** A default parameter: used when the argument is undefined. */
  function Given(arg: Value, default: Value): (v: Value)
    ensures arg.Undefined? ==> v == default
    ensures !arg.Undefined? ==> v == arg
  {
    if arg.Undefined? then default else arg
  }

  const SNAP_ERROR := "Invalid snap area, you need to specify a positive width and height for your image capture"

  /** The area `snap` reads from the viewport: the whole configured surface by
      default; an area whose width or height is not above zero is refused,
      while its left and top are not checked. */
  function Snap(o: map<string, Value>, fmt: Formatter, left: Value, top: Value, width: Value, height: Value)
    : (r: Result<Rect<Value>>)
    ensures var w, h := Given(width, Lookup(o, "width")), Given(height, Lookup(o, "height"));
      (r.Err? <==> AtMostZero(fmt, w) || AtMostZero(fmt, h))
      && (r.Err? ==> r.error == Error(SNAP_ERROR))
      && (r.Ok? ==> r.value == Rect(Given(left, Num(0.0)), Given(top, Num(0.0)), w, h))
  {
    var w, h := Given(width, Lookup(o, "width")), Given(height, Lookup(o, "height"));
    if AtMostZero(fmt, w) || AtMostZero(fmt, h) then Err(Error(SNAP_ERROR))
    else Ok(Rect(Given(left, Num(0.0)), Given(top, Num(0.0)), w, h))
  }

  /** `snap()` reads the whole configured surface, and a zero width is refused. */
  lemma SnapExamples(o: map<string, Value>, fmt: Formatter, w: real, h: real)
    requires Lookup(o, "width") == Num(w) && Lookup(o, "height") == Num(h) && w > 0.0 && h > 0.0
    ensures Snap(o, fmt, Undefined, Undefined, Undefined, Undefined)
            == Ok(Rect(Num(0.0), Num(0.0), Num(w), Num(h)))
    ensures Snap(o, fmt, Num(0.0), Num(0.0), Num(0.0), Num(5.0)) == Err(Error(SNAP_ERROR))
  {
  }

  /** Whether `snap` throws does not depend on the left and top it is given. */
  lemma SnapIgnoresOrigin(o: map<string, Value>, fmt: Formatter, l1: Value, t1: Value, l2: Value, t2: Value,
                          width: Value, height: Value)
    ensures Snap(o, fmt, l1, t1, width, height).Ok? == Snap(o, fmt, l2, t2, width, height).Ok?
  {
  }

  /** The request `save` makes of the encoder: format png and quality 1 by
      default, and the MIME type "image/" followed by the format. */
  function Save(fmt: Formatter, format: Value, quality: Value): (r: Export)
    ensures |r.mime| >= 6 && r.mime[..6] == "image/"
    ensures r.mime[6..] == Text(fmt, Given(format, Str("png")))
    ensures r.quality == Given(quality, Num(1.0))
  {
    Export("image/" + Text(fmt, Given(format, Str("png"))), Given(quality, Num(1.0)))
  }

  /** `save()` asks for a png of quality 1 and `save('jpeg', 0.5)` for a jpeg. */
  lemma SaveExamples(fmt: Formatter)
    ensures Save(fmt, Undefined, Undefined) == Export("image/png", Num(1.0))
    ensures Save(fmt, Str("jpeg"), Num(0.5)) == Export("image/jpeg", Num(0.5))
  {
  }

  // ----- the class -----

  const VIEWPORT_ERROR := "Invalid viewport, you need to pass a valid HTML5 canvas element"
  const FILTER_ERROR := "Invalid filter, you need to return a valid [red, green, blue, alpha] pixel array"

  /** A constructed `Instacam`: its options, the filter string it last
      computed, the viewport canvas and the hidden video element. */
  class Instacam {
    var options: map<string, Value>
    var style: string
    const viewport: Element
    const media: Video
    const fmt: Formatter

    /** The filter string is that of the current options, and it is the
        viewport's. */
    ghost predicate Valid()
      reads this`options, this`style, viewport`filter
    {
      style == Style(options, COSMETIC_DEFAULTS, fmt) && viewport.filter == style
    }

    /** Stores the options and creates the hidden video element at the
        configured size. */
    constructor (viewport: Element, options: map<string, Value>, fmt: Formatter)
      ensures this.viewport == viewport && this.options == options && this.fmt == fmt
      ensures fresh(media) && media.width == Lookup(options, "width") && media.height == Lookup(options, "height")
    {
      this.options := options;
      this.viewport := viewport;
      this.fmt := fmt;
      style := "";
      media := new Video(Lookup(options, "width"), Lookup(options, "height"));
    }

    /** The getter of a property: the option as stored. A cosmetic getter
        returns something other than its default exactly when the option has
        a term in the filter string. */
    function Get(p: Property): (v: Value)
      reads this
      ensures PropertyKey(p) !in options ==> v == Undefined
      ensures PropertyKey(p) in options ==> v == options[PropertyKey(p)]
      ensures p.Cosmetic? ==> (Differs(options, COSMETIC_DEFAULTS, p.c) <==> v != COSMETIC_DEFAULTS.Of(p.c))
    {
      Lookup(options, PropertyKey(p))
    }

    /** `_compute`: rebuilds the filter string and applies it to the viewport. */
    method Compute()
      modifies this`style, viewport`filter
      ensures Valid()
    {
      style := BuildStyle(options, COSMETIC_DEFAULTS, fmt);
      viewport.filter := style;
    }

    /** The setter of a cosmetic option: validate, assign, recompute. */
    method SetCosmetic(c: CssFilter.Cosmetic, v: Value) returns (r: Outcome)
      requires Valid()
      modifies this`options, this`style, viewport`filter
      ensures Assign(old(options), Cosmetic(c), v) == if r.Pass? then Ok(options) else Err(r.error)
      ensures r.Pass? ==> Get(Cosmetic(c)) == v
      ensures r.Fail? ==> options == old(options)
      ensures Valid()
    {
      match Assign(options, Cosmetic(c), v)
      case Err(e) =>
        return Fail(e);
      case Ok(o) =>
        options := o;
        Compute();
        return Pass;
    }

    /** The volume setter: validates a value in 0..100 and stores a hundredth
        of it in the options and in the video element. */
    method SetVolume(v: Value) returns (r: Outcome)
      modifies this`options, media`volume
      ensures Assign(old(options), Volume, v) == if r.Pass? then Ok(options) else Err(r.error)
      ensures r.Pass? ==> Get(Volume) == Num(v.n / 100.0)
      ensures r.Fail? ==> options == old(options)
      ensures media.volume == if r.Pass? then Lookup(options, "volume") else old(media.volume)
      ensures old(Valid()) ==> Valid()
    {
      match Assign(options, Volume, v)
      case Err(e) =>
        return Fail(e);
      case Ok(o) =>
        AssignOtherKeepsStyle(options, Volume, v, fmt);
        options := o;
        media.volume := Num(v.n / 100.0);
        return Pass;
    }

    /** The mirror setter: validates a boolean, rewrites the viewport's
        transform from its computed one and stores the flag. */
    method SetMirror(v: Value, computed: string) returns (r: Outcome)
      modifies this`options, viewport`transform
      ensures r.Pass? <==> v.Bool?
      ensures r.Pass? ==> options == old(options)["mirror" := v] && Get(Mirror) == v
      ensures r.Fail? ==> options == old(options) && r.error == Error(Complaint(Mirror))
      ensures viewport.transform == if r.Pass? then MirrorTransform(v.b, computed) else old(viewport.transform)
      ensures old(Valid()) ==> Valid()
    {
      match Assign(options, Mirror, v)
      case Err(e) =>
        return Fail(e);
      case Ok(o) =>
        AssignOtherKeepsStyle(options, Mirror, v, fmt);
        viewport.transform := MirrorTransform(v.b, computed);
        options := o;
        return Pass;
    }

    /** The custom filter setter: validates null or a function and stores it,
        without recomputing the filter string. */
    method SetFilter(v: Value) returns (r: Outcome)
      modifies this`options
      ensures Assign(old(options), CustomFilter, v) == if r.Pass? then Ok(options) else Err(r.error)
      ensures r.Pass? ==> Get(CustomFilter) == v
      ensures r.Fail? ==> options == old(options)
      ensures old(Valid()) ==> Valid()
    {
      match Assign(options, CustomFilter, v)
      case Err(e) =>
        return Fail(e);
      case Ok(o) =>
        AssignOtherKeepsStyle(options, CustomFilter, v, fmt);
        options := o;
        return Pass;
    }

    /** `_filter`: runs the custom filter `call` over every pixel of `image`,
        which was read from the buffer canvas at the configured size, and
        returns the same image. A call that throws is reported as an invalid
        filter; the pixels before it stay rewritten. */
    method ApplyFilter(image: ImageData, call: Pixel -> Returned) returns (r: Result<ImageData>, ghost stop: nat)
      requires image.Valid()
      requires Lookup(options, "width") == Num(image.width as real)
      requires Lookup(options, "height") == Num(image.height as real)
      modifies image.data
      ensures var orig, all := old(image.data[..]), image.width * image.height;
        (r.Ok? <==> SucceedsUpTo(orig, image.width, call, all))
        && (r.Ok? ==> r.value == image && image.data[..] == Transformed(orig, image.width, call, all))
        && (r.Err? ==> r.error == Error(FILTER_ERROR) && stop < all
                       && SucceedsUpTo(orig, image.width, call, stop)
                       && call(PixelAt(orig, image.width, stop)).Threw?
                       && image.data[..] == Transformed(orig, image.width, call, stop))
    {
      var outcome;
      outcome, stop := TransformPixels(image.data, image.width, image.height, call);
      if outcome.Fail? {
        return Err(Error(FILTER_ERROR)), stop;
      }
      return Ok(image), stop;
    }
  }

  /** What `new Instacam(viewport, options)` ends with: on a platform without
      camera support only the merged options exist and the `unsupported`
      callback was called if it is a function; otherwise it throws, or gives
      a constructed object. */
  datatype Construction =
    | Unsupported(options: map<string, Value>, notified: bool)
    | Rejected(error: Error)
    | Ready(cam: Instacam)

  /** The viewport as a frame: itself, or nothing when it is null. */
  function Present(viewport: Element?): set<Element> {
    if viewport == null then {} else {viewport}
  }

  /** The constructor: merge the options, check support and the viewport,
      then `Open` it. Only the viewport and the mirror option are validated;
      the cosmetic options are stored as given. */
  method Create(viewport: Element?, user: map<string, Value>, supported: bool, fmt: Formatter, computed: string)
    returns (r: Construction)
    modifies Present(viewport)`width, Present(viewport)`height, Present(viewport)`transform, Present(viewport)`filter
    ensures !supported ==>
      r == Unsupported(Merge(DEFAULTS, user), TypeOf(Lookup(Merge(DEFAULTS, user), "unsupported")) == "function")
    ensures supported && (viewport == null || !viewport.isCanvas) ==> r == Rejected(Error(VIEWPORT_ERROR))
    ensures !(supported && viewport != null && viewport.isCanvas) ==> viewport == null || unchanged(viewport)
    ensures supported && viewport != null && viewport.isCanvas ==> Opened(viewport, Merge(DEFAULTS, user), fmt, computed, r)
    ensures r.Rejected? && viewport != null ==>
      viewport.transform == old(viewport.transform) && viewport.filter == old(viewport.filter)
    ensures r.Ready? ==> fresh(r.cam) && fresh(r.cam.media)
  {
    var o := Merge(DEFAULTS, user);
    if !supported {
      return Unsupported(o, TypeOf(Lookup(o, "unsupported")) == "function");
    }
    if viewport == null || !viewport.isCanvas {
      return Rejected(Error(VIEWPORT_ERROR));
    }
    r := Open(viewport, o, fmt, computed);
  }

  /** What `Open` ends with: a viewport sized by the options, and either the
      mirror setter's error or a constructed object that holds the options,
      has the viewport mirrored as asked and its filter string computed. */
  ghost predicate Opened(viewport: Element, o: map<string, Value>, fmt: Formatter, computed: string, r: Construction)
    reads viewport, if r.Ready? then {r.cam} else {}
  {
    && viewport.width == Lookup(o, "width")
    && viewport.height == Lookup(o, "height")
    && (!Lookup(o, "mirror").Bool? ==> r == Rejected(Error(Complaint(Mirror))))
    && (Lookup(o, "mirror").Bool? ==>
          r.Ready? && r.cam.viewport == viewport && r.cam.fmt == fmt && r.cam.options == o && r.cam.Valid()
          && viewport.transform == MirrorTransform(Lookup(o, "mirror").b, computed))
  }

  /** The rest of the constructor once the viewport is known to be a canvas:
      size it, create the video element, apply the mirror option through its
      setter and compute the filter string. */
  method Open(viewport: Element, o: map<string, Value>, fmt: Formatter, computed: string) returns (r: Construction)
    requires "mirror" in o
    modifies viewport`width, viewport`height, viewport`transform, viewport`filter
    ensures viewport.width == Lookup(o, "width")
    ensures viewport.height == Lookup(o, "height")
    ensures !Lookup(o, "mirror").Bool? ==> r == Rejected(Error(Complaint(Mirror)))
    ensures Lookup(o, "mirror").Bool? ==> r.Ready? && r.cam.viewport == viewport && r.cam.fmt == fmt
    ensures r.Ready? ==> r.cam.options == o && r.cam.Valid()
    ensures r.Ready? ==> viewport.transform == MirrorTransform(Lookup(o, "mirror").b, computed)
    ensures r.Ready? ==> fresh(r.cam) && fresh(r.cam.media)
    ensures r.Ready? ==> r.cam.media.width == Lookup(o, "width") && r.cam.media.height == Lookup(o, "height")
    ensures r.Rejected? ==> viewport.transform == old(viewport.transform) && viewport.filter == old(viewport.filter)
  {
    viewport.width := Lookup(o, "width");
    viewport.height := Lookup(o, "height");
    ghost var size := (viewport.width, viewport.height);
    var cam := new Instacam(viewport, o, fmt);
    var mirrored := cam.SetMirror(o["mirror"], computed);
    assert (viewport.width, viewport.height) == size;
    if mirrored.Fail? {
      return Rejected(mirrored.error);
    }
    UpdateSame(o, "mirror");
    cam.Compute();
    assert (viewport.width, viewport.height) == size;
    return Ready(cam);
  }
}

=== FILE: jquery_plugin.dfy ===
/** The jQuery build: `$.instacam(viewport, options)` makes a plugin object
    whose settings are the defaults extended with the caller's options, and
    `$.fn.instacam` later reads or overwrites single settings without any
    validation. Every frame of the animation loop recomputes the filter
    string, comparing each option loosely (`!=`) with its default, and writes
    it to the viewport only when it differs from the cached one. */
module JQueryPlugin {
  import opened Js
  import opened CssFilter
  import opened Pixels
  import EsBuild

  /** The default settings of the plugin. */
  const DEFAULTS: map<string, Value> := map[
    "width" := Num(400.0), "height" := Num(300.0), "sound" := Bool(false),
    "opacity" := Num(1.0), "brightness" := Num(1.0), "contrast" := Num(1.0),
    "saturation" := Num(0.0), "hue" := Num(0.0), "invert" := Num(0.0),
    "grayscale" := Num(0.0), "sepia" := Num(0.0), "blur" := Num(0.0), "url" := Str(""),
    "filter" := Null, "done" := Null, "fail" := Null, "unsupported" := Null]

  /** The defaults of the cosmetic settings, compared against with `!=`,
      which converts strings to numbers with `fmt`. */
  function CosmeticDefaults(fmt: Formatter): (d: Defaults)
    ensures d.cmp == Loose(fmt)
  {
    Defaults(Loose(fmt),
      Num(1.0), Num(1.0), Num(1.0), Num(0.0), Num(0.0),
      Num(0.0), Num(0.0), Num(0.0), Num(0.0), Str(""))
  }

  /** They are what the table of defaults holds under each cosmetic key. */
  lemma CosmeticDefaultsInTable(fmt: Formatter, c: Cosmetic)
    ensures Key(c) in DEFAULTS && DEFAULTS[Key(c)] == CosmeticDefaults(fmt).Of(c)
  {
  }

  /** Both builds have the same default for every cosmetic option; only the
      comparison differs. */
  lemma CosmeticDefaultsAgree(fmt: Formatter, c: Cosmetic)
    ensures CosmeticDefaults(fmt).Of(c) == EsBuild.COSMETIC_DEFAULTS.Of(c)
  {
  }

  // ----- $.extend -----

  /** `$.extend({}, target, source)`: a property of `source` whose value is
      undefined is skipped, every other one overrides. */
  function Extend(target: map<string, Value>, source: map<string, Value>): (r: map<string, Value>)
    ensures r.Keys == target.Keys + set k | k in source && source[k] != Undefined
    ensures forall k :: k in source && source[k] != Undefined ==> r[k] == source[k]
    ensures forall k :: k in target && (k !in source || source[k] == Undefined) ==> r[k] == target[k]
  {
    target + map k | k in source && source[k] != Undefined :: source[k]
  }

  /** Reading an extended object: the source's property unless it is missing
      or undefined, else the target's. */
  lemma ExtendLookup(target: map<string, Value>, source: map<string, Value>, k: string)
    ensures Lookup(Extend(target, source), k)
      == if k in source && source[k] != Undefined then source[k] else Lookup(target, k)
  {
  }

  /** Without undefined properties in the source, `$.extend` and
      `Object.assign` give the same object. */
  lemma ExtendIsMergeWithoutUndefined(target: map<string, Value>, source: map<string, Value>)
    requires forall k :: k in source ==> source[k] != Undefined
    ensures Extend(target, source) == Merge(target, source)
  {
  }

  /** With one, they differ: an explicitly undefined width keeps the default
      in the plugin and replaces it in the class build. */
  lemma UndefinedOptionKeepsDefault()
    ensures Lookup(Extend(DEFAULTS, map["width" := Undefined]), "width") == Num(400.0)
    ensures Lookup(Merge(EsBuild.DEFAULTS, map["width" := Undefined]), "width") == Undefined
  {
  }

  // ----- the filter string cache -----

  /** What a frame writes to the viewport's `filter` and `-webkit-filter`:
      a non-empty filter string that is not loosely equal to the cached one,
      or the empty string on every frame that has no filter; nothing when the
      cache already holds the non-empty string. */
  function Written(fmt: Formatter, cached: Value, filters: string): (w: Option<string>)
    ensures w.None? <==> filters != "" && LooselyEqual(fmt, cached, Str(filters))
    ensures w.Some? ==> w.value == filters
  {
    if filters != "" && !LooselyEqual(fmt, cached, Str(filters)) then Some(filters)
    else if filters == "" then Some("")
    else None
  }

  /** The first frame writes its filter string; a frame whose string is the
      cached one writes nothing, unless that string is empty, which is written
      again on every frame. */
  lemma WrittenCaches(fmt: Formatter, cached: Value, filters: string)
    ensures cached.Undefined? ==> Written(fmt, cached, filters) == Some(filters)
    ensures cached == Str(filters) ==> Written(fmt, cached, filters) == if filters == "" then Some("") else None
    ensures cached.Str? && cached != Str(filters) ==> Written(fmt, cached, filters) == Some(filters)
  {
  }

  // ----- the plugin object -----

  /** The object `$.instacam` builds: its settings, the cached filter string
      (`plugin.css`, undefined until the first frame) and the viewport. */
  class Plugin {
    var settings: map<string, Value>
    var css: Value
    const viewport: Element
    const fmt: Formatter
    /** Whether `init` found the platform unsupported and called the
        `unsupported` callback. */
    const notifiedUnsupported: bool

    /** The cache is unset or holds the string both filter properties of the
        viewport have. */
    ghost predicate Valid()
      reads this`css, viewport`filter, viewport`webkitFilter
    {
      (css.Undefined? || css.Str?)
      && (css.Str? ==> viewport.filter == css.s && viewport.webkitFilter == css.s)
    }

    /** `init`: extend the defaults with the caller's options; on a platform
        without `getUserMedia` or `requestAnimationFrame` call `unsupported`
        if it is a function and stop; otherwise set the viewport's width and
        height attributes, which hold the settings as text. */
    constructor (viewport: Element, user: map<string, Value>, supported: bool, fmt: Formatter)
      modifies viewport
      ensures this.viewport == viewport && this.fmt == fmt
      ensures settings == Extend(DEFAULTS, user) && css == Undefined
      ensures notifiedUnsupported == (!supported && TypeOf(Lookup(settings, "unsupported")) == "function")
      ensures !supported ==> unchanged(viewport)
      ensures supported ==>
        viewport.width == Str(Text(fmt, Lookup(settings, "width")))
        && viewport.height == Str(Text(fmt, Lookup(settings, "height")))
        && unchanged(viewport`filter, viewport`webkitFilter, viewport`transform)
      ensures Valid()
    {
      settings := Extend(DEFAULTS, user);
      css := Undefined;
      this.viewport := viewport;
      this.fmt := fmt;
      notifiedUnsupported := !supported && TypeOf(Lookup(Extend(DEFAULTS, user), "unsupported")) == "function";
      new;
      if supported {
        viewport.width := Str(Text(fmt, Lookup(settings, "width")));
        viewport.height := Str(Text(fmt, Lookup(settings, "height")));
      }
    }

    /** The end of a frame: build the filter string of the current settings
        and apply it when `Written` says so, updating the cache. Afterwards
        the cache and both filter properties hold the string. */
    method RefreshStyle()
      requires Valid()
      modifies this`css, viewport`filter, viewport`webkitFilter
      ensures var s := Style(settings, CosmeticDefaults(fmt), fmt);
        css == Str(s) && viewport.filter == s && viewport.webkitFilter == s
      ensures Written(fmt, old(css), Style(settings, CosmeticDefaults(fmt), fmt)).None? ==>
        unchanged(viewport`filter, viewport`webkitFilter)
      ensures Valid()
    {
      var filters := BuildStyle(settings, CosmeticDefaults(fmt), fmt);
      if filters != "" && !LooselyEqual(fmt, css, Str(filters)) {
        viewport.filter, viewport.webkitFilter := filters, filters;
        css := Str(filters);
      }
      if filters == "" {
        viewport.filter, viewport.webkitFilter := "", "";
        css := Str("");
      }
    }

    /** The inner `filter`: runs the custom filter `call` over every pixel of
        `image`, read from the buffer canvas at the size of the settings, and
        returns the same image. Nothing catches what the filter throws: the
        exception leaves with the pixels before it rewritten. */
    method Filter(image: ImageData, call: Pixel -> Returned) returns (r: Result<ImageData>, ghost stop: nat)
      requires image.Valid()
      requires Lookup(settings, "width") == Num(image.width as real)
      requires Lookup(settings, "height") == Num(image.height as real)
      modifies image.data
      ensures var orig, all := old(image.data[..]), image.width * image.height;
        (r.Ok? <==> SucceedsUpTo(orig, image.width, call, all))
        && (r.Ok? ==> r.value == image && image.data[..] == Transformed(orig, image.width, call, all))
        && (r.Err? ==> stop < all && SucceedsUpTo(orig, image.width, call, stop)
                       && call(PixelAt(orig, image.width, stop)) == Threw(r.error)
                       && image.data[..] == Transformed(orig, image.width, call, stop))
    {
      var outcome;
      outcome, stop := TransformPixels(image.data, image.width, image.height, call);
      if outcome.Fail? {
        return Err(outcome.error), stop;
      }
      return Ok(image), stop;
    }

    /** A frame of the animation loop once the next one is scheduled: with a
        custom filter the buffer's `image` goes through `Filter`, and an
        exception from it ends the frame before the filter string is
        refreshed, with the pixels before the throwing one rewritten;
        otherwise the whole image is rewritten and the string is refreshed. */
    method Frame(image: ImageData, call: Pixel -> Returned) returns (r: Outcome, ghost stop: nat)
      requires Valid() && image.Valid()
      requires TypeOf(Lookup(settings, "filter")) == "function" ==>
        Lookup(settings, "width") == Num(image.width as real)
        && Lookup(settings, "height") == Num(image.height as real)
      modifies this`css, viewport`filter, viewport`webkitFilter, image.data
      ensures Valid()
      ensures TypeOf(Lookup(settings, "filter")) != "function" ==> r.Pass? && unchanged(image.data)
      ensures TypeOf(Lookup(settings, "filter")) == "function" ==>
        var orig, all := old(image.data[..]), image.width * image.height;
        (r.Pass? <==> SucceedsUpTo(orig, image.width, call, all))
        && (r.Pass? ==> image.data[..] == Transformed(orig, image.width, call, all))
        && (r.Fail? ==> stop < all && SucceedsUpTo(orig, image.width, call, stop)
                        && call(PixelAt(orig, image.width, stop)) == Threw(r.error)
                        && image.data[..] == Transformed(orig, image.width, call, stop))
      ensures r.Pass? ==> css == Str(Style(settings, CosmeticDefaults(fmt), fmt))
      ensures r.Fail? ==> unchanged(this`css, viewport`filter, viewport`webkitFilter)
    {
      stop := 0;
      if TypeOf(Lookup(settings, "filter")) == "function" {
        var filtered;
        filtered, stop := Filter(image, call);
        if filtered.Err? {
          return Fail(filtered.error), stop;
        }
      }
      RefreshStyle();
      return Pass, stop;
    }

    /** `$.fn.instacam(options)` on an element that already has a plugin: an
        object (or null, `typeof` "object" too) has each of its own
        properties assigned to the settings, unchecked, and nothing is
        returned; any other argument is used as a key and that setting is
        returned. */
    method Configure(arg: Value) returns (r: Value)
      modifies this`settings
      ensures TypeOf(arg) == "object" ==> r == Undefined
      ensures arg.Obj? ==> settings == Merge(old(settings), arg.fields)
      ensures !arg.Obj? ==> settings == old(settings)
      ensures TypeOf(arg) != "object" ==> r == Lookup(settings, Text(fmt, arg))
    {
      if TypeOf(arg) == "object" {
        // `$.each(null, …)` visits nothing (jQuery 3 and later).
        var fields := if arg.Obj? then arg.fields else map[];
        var pending := fields.Keys;
        while pending != {}
          invariant pending <= fields.Keys
          invariant settings == Merge(old(settings), fields - pending)
          decreases |pending|
        {
          var key :| key in pending;
          Assigned(old(settings), fields, pending, key);
          settings := settings[key := fields[key]];
          pending := pending - {key};
        }
        assert fields - {} == fields;
        return Undefined;
      }
      return Lookup(settings, Text(fmt, arg));
    }
  }

  /** One more property assigned by the `$.each` loop of `Configure`. */
  lemma Assigned(settings: map<string, Value>, fields: map<string, Value>, pending: set<string>, key: string)
    requires key in pending && pending <= fields.Keys
    ensures Merge(settings, fields - pending)[key := fields[key]] == Merge(settings, fields - (pending - {key}))
  {
  }

  /** Settings written through `$.fn.instacam` are stored unchecked and read
      back as written: after `$(el).instacam({opacity: 5})` the opacity is 5,
      which the class build's setter refuses, and the next frame's filter
      string has a term for it. */
  method ConfigureStoresUnchecked(p: Plugin) returns (r: Value)
    modifies p`settings
    ensures r == Undefined
    ensures Lookup(p.settings, "opacity") == Num(5.0)
    ensures Differs(p.settings, CosmeticDefaults(p.fmt), Opacity)
    ensures EsBuild.Check(EsBuild.Cosmetic(Opacity), Num(5.0)).Fail?
  {
    r := p.Configure(Obj(map["opacity" := Num(5.0)]));
  }

  // ----- snapshot and export -----

  /** `plugin.snap`: the area read from the viewport. Unless all four
      arguments are given, the whole configured surface is read; nothing is
      checked. */
  function Snap(settings: map<string, Value>, left: Value, top: Value, width: Value, height: Value)
    : (r: Rect<Value>)
    ensures left.Undefined? || top.Undefined? || width.Undefined? || height.Undefined? ==>
      r == Rect(Num(0.0), Num(0.0), Lookup(settings, "width"), Lookup(settings, "height"))
    ensures !(left.Undefined? || top.Undefined? || width.Undefined? || height.Undefined?) ==>
      r == Rect(left, top, width, height)
  {
    if TypeOf(left) == "undefined" || TypeOf(top) == "undefined"
       || TypeOf(width) == "undefined" || TypeOf(height) == "undefined"
    then Rect(Num(0.0), Num(0.0), Lookup(settings, "width"), Lookup(settings, "height"))
    else Rect(left, top, width, height)
  }

  /** Given the same surface size and four arguments with a positive width
      and height, both builds read the same area. */
  lemma SnapsAgree(settings: map<string, Value>, o: map<string, Value>, fmt: Formatter,
                   left: Value, top: Value, width: Value, height: Value)
    requires !left.Undefined? && !top.Undefined? && !width.Undefined? && !height.Undefined?
    requires !AtMostZero(fmt, width) && !AtMostZero(fmt, height)
    ensures EsBuild.Snap(o, fmt, left, top, width, height) == Ok(Snap(settings, left, top, width, height))
  {
  }

  /** Where they differ: given only a width, the plugin ignores it while the
      class build uses it; a negative width is passed on unchecked by the
      plugin, and `getImageData` accepts it, but refused by the class build. */
  lemma SnapsDiffer(settings: map<string, Value>, fmt: Formatter)
    requires Lookup(settings, "width") == Num(400.0) && Lookup(settings, "height") == Num(300.0)
    ensures Snap(settings, Undefined, Undefined, Num(100.0), Undefined).width == Num(400.0)
    ensures EsBuild.Snap(settings, fmt, Undefined, Undefined, Num(100.0), Undefined).value.width == Num(100.0)
    ensures Snap(settings, Num(0.0), Num(0.0), Num(-10.0), Num(10.0)).width == Num(-10.0)
    ensures EsBuild.Snap(settings, fmt, Num(0.0), Num(0.0), Num(-10.0), Num(10.0)).Err?
  {
  }

  /** `plugin.save`: format png and quality 1 unless given. */
  function Save(fmt: Formatter, format: Value, quality: Value): (r: Export)
    ensures format.Undefined? ==> r.mime == "image/png"
    ensures quality.Undefined? ==> r.quality == Num(1.0)
    ensures !quality.Undefined? ==> r.quality == quality
  {
    var format' := if TypeOf(format) == "undefined" then Str("png") else format;
    var quality' := if TypeOf(quality) == "undefined" then Num(1.0) else quality;
    Export("image/" + Text(fmt, format'), quality')
  }

  /** Both builds make the same request of the encoder. */
  lemma SavesAgree(fmt: Formatter, format: Value, quality: Value)
    ensures Save(fmt, format, quality) == EsBuild.Save(fmt, format, quality)
  {
  }

  // ----- the two builds' filter strings -----

  /** When every cosmetic setting has the type of its default, comparing
      loosely or strictly makes no difference: both builds produce the same
      filter string. */
  lemma StylesAgree(o: map<string, Value>, fmt: Formatter)
    requires forall c :: SameType(Lookup(o, Key(c)), EsBuild.COSMETIC_DEFAULTS.Of(c))
    ensures Style(o, CosmeticDefaults(fmt), fmt) == Style(o, EsBuild.COSMETIC_DEFAULTS, fmt)
  {
    forall c ensures Differs(o, CosmeticDefaults(fmt), c) == Differs(o, EsBuild.COSMETIC_DEFAULTS, c) {
      CosmeticDefaultsAgree(fmt, c);
    }
    StyleFollowsDiffers(o, CosmeticDefaults(fmt), o, EsBuild.COSMETIC_DEFAULTS, fmt);
  }

  /** Otherwise they may not: an opacity given as the string "1" is loosely
      equal to the default 1, so the plugin writes no filter, while the class
      build writes an opacity term. */
  lemma StringOpacityDiffers(fmt: Formatter)
    requires fmt.parse("1") == Real(1.0)
    ensures var o := DEFAULTS["opacity" := Str("1")];
      Style(o, CosmeticDefaults(fmt), fmt) == ""
      && Style(o, EsBuild.COSMETIC_DEFAULTS, fmt) == Entry(o, Opacity, fmt)
  {
    var o := DEFAULTS["opacity" := Str("1")];
    forall c ensures !Differs(o, CosmeticDefaults(fmt), c) {
      CosmeticDefaultsInTable(fmt, c);
    }
    StyleEmptyIff(o, CosmeticDefaults(fmt), fmt);
    forall c | c != Opacity ensures !Differs(o, EsBuild.COSMETIC_DEFAULTS, c) {
      CosmeticDefaultsInTable(fmt, c);
      CosmeticDefaultsAgree(fmt, c);
      KeyInjective(c, Opacity);
    }
    StyleOfOne(o, EsBuild.COSMETIC_DEFAULTS, Opacity, fmt);
  }
}

=== FILE: js.dfy ===
/** The host-language values, errors and DOM objects that both builds of the
    library work with. Numbers are mathematical reals: NaN, the infinities,
    signed zero and floating-point rounding are not modelled. */
module Js {

  /** A JavaScript value as far as the library inspects it. Functions are
      compared by identity, so a function value is its identity; an object
      value is its own enumerable properties, so objects compare by content. */
  datatype Value =
    | Undefined
    | Null
    | Bool(b: bool)
    | Num(n: real)
    | Str(s: string)
    | Fn(id: nat)
    | Obj(fields: map<string, Value>)

  /** The `typeof` operator. */
  function TypeOf(v: Value): (t: string)
    ensures t == "number" <==> v.Num?
    ensures t == "string" <==> v.Str?
    ensures t == "boolean" <==> v.Bool?
    ensures t == "function" <==> v.Fn?
    ensures t == "undefined" <==> v.Undefined?
    ensures t == "object" <==> v.Null? || v.Obj?
  {
    match v
    case Undefined => "undefined"
    case Null => "object"
    case Bool(_) => "boolean"
    case Num(_) => "number"
    case Str(_) => "string"
    case Fn(_) => "function"
    case Obj(_) => "object"
  }

  /** How the host turns a number, or a function, into text, and a string
      into a number. All three are left to the host and stay abstract here. */
  datatype Formatter = Formatter(number: real -> string, source: nat -> string, parse: string -> Numeric)

  /** The result of ToNumber: a real number or NaN. */
  datatype Numeric = Real(r: real) | NaN

  /** ToNumber, as applied to both operands of `<=` when one is a number. A
      plain object becomes "[object Object]" first, which is not numeric. */
  function ToNumber(fmt: Formatter, v: Value): (n: Numeric)
    ensures v.Num? ==> n == Real(v.n)
    ensures v.Undefined? || v.Fn? || v.Obj? ==> n == NaN
  {
    match v
    case Undefined => NaN
    case Null => Real(0.0)
    case Bool(b) => Real(if b then 1.0 else 0.0)
    case Num(n) => Real(n)
    case Str(s) => fmt.parse(s)
    case Fn(_) => NaN
    case Obj(_) => NaN
  }

  /** The comparison `v <= 0`: false whenever `v` converts to NaN. */
  function AtMostZero(fmt: Formatter, v: Value): (b: bool)
    ensures v.Num? ==> (b <==> v.n <= 0.0)
    ensures v.Null? || v == Bool(false) ==> b
    ensures v.Undefined? || v.Fn? || v.Obj? || v == Bool(true) ==> !b
    ensures v.Str? ==> (b <==> fmt.parse(v.s).Real? && fmt.parse(v.s).r <= 0.0)
  {
    var n := ToNumber(fmt, v);
    n.Real? && n.r <= 0.0
  }

  /** Whether `a` and `b` are of the same language type; functions and plain
      objects are both objects. */
  predicate SameType(a: Value, b: Value) {
    || (a.Undefined? && b.Undefined?) || (a.Null? && b.Null?) || (a.Bool? && b.Bool?)
    || (a.Num? && b.Num?) || (a.Str? && b.Str?) || ((a.Fn? || a.Obj?) && (b.Fn? || b.Obj?))
  }

  /** The loose comparison `a == b` (Abstract Equality Comparison, section
      7.2.14 of ECMAScript 2020). Values of one type are equal when they are
      the same value; null and undefined equal each other and nothing else;
      numbers, strings and booleans of different types are compared as
      numbers, where NaN equals nothing. An object against a primitive would first be converted by
      ToPrimitive, which calls user code; such a pair is taken as unequal. */
  function LooselyEqual(fmt: Formatter, a: Value, b: Value): (r: bool)
    ensures SameType(a, b) ==> (r <==> a == b)
    ensures a.Str? && b.Num? ==> (r <==> fmt.parse(a.s) == Real(b.n))
    ensures a.Null? ==> (r <==> b.Null? || b.Undefined?)
  {
    if SameType(a, b) then a == b
    else if a.Null? || a.Undefined? || b.Null? || b.Undefined? then
      (a.Null? || a.Undefined?) && (b.Null? || b.Undefined?)
    else if a.Fn? || a.Obj? || b.Fn? || b.Obj? then false
    else ToNumber(fmt, a).Real? && ToNumber(fmt, a) == ToNumber(fmt, b)
  }

  /** Loose equality does not depend on the order of its operands. */
  lemma LooselyEqualSymmetric(fmt: Formatter, a: Value, b: Value)
    ensures LooselyEqual(fmt, a, b) == LooselyEqual(fmt, b, a)
  {
  }

  /** ToString, as used by template literals, by `+` with a string operand
      and when a value is used as a property key. */
  function Text(fmt: Formatter, v: Value): (t: string)
    ensures v.Str? ==> t == v.s
    ensures t == "" ==> v.Str? || v.Num? || v.Fn?
  {
    match v
    case Undefined => "undefined"
    case Null => "null"
    case Bool(b) => if b then "true" else "false"
    case Num(n) => fmt.number(n)
    case Str(s) => s
    case Fn(id) => fmt.source(id)
    case Obj(_) => "[object Object]"
  }

  /** Reading property `k` of a plain object: a missing key reads as undefined. */
  function Lookup(o: map<string, Value>, k: string): (v: Value)
    ensures k !in o ==> v == Undefined
    ensures k in o ==> v == o[k]
  {
    if k in o then o[k] else Undefined
  }

  /** `Object.assign({}, target, source)`, and equally a loop that assigns
      each own property of `source` to `target`: every property of `source`,
      an undefined one included, overrides. */
  function Merge(target: map<string, Value>, source: map<string, Value>): (r: map<string, Value>)
    ensures r.Keys == target.Keys + source.Keys
    ensures forall k :: k in source ==> r[k] == source[k]
    ensures forall k :: k in target && k !in source ==> r[k] == target[k]
  {
    target + source
  }

  /** Reading a merged object: the source's property if it has one, else the
      target's. */
  lemma MergeLookup(target: map<string, Value>, source: map<string, Value>, k: string)
    ensures Lookup(Merge(target, source), k) == if k in source then source[k] else Lookup(target, k)
  {
  }

  /** Writing back the value a key already has leaves an object as it was. */
  lemma UpdateSame(o: map<string, Value>, k: string)
    requires k in o
    ensures o[k := o[k]] == o
  {
  }

  /** A thrown `Error` and its message. */
  datatype Error = Error(message: string)

  /** The outcome of a statement that may throw. */
  datatype Outcome = Pass | Fail(error: Error)

  /** A value that may be absent. */
  datatype Option<T> = None | Some(value: T)

  /** The outcome of an expression that may throw. */
  datatype Result<T> = Ok(value: T) | Err(error: Error)

  /** A rectangle of the canvas, as passed to `getImageData`. */
  datatype Rect<T> = Rect(left: T, top: T, width: T, height: T)

  /** A request to the host's image encoder (`toDataURL(mime, quality)`). */
  datatype Export = Export(mime: string, quality: Value)

  /** The element passed as the viewport: whether its lower-cased node name
      is "canvas", and the properties the library writes. */
  class Element {
    const isCanvas: bool
    /** The `width` and `height` the library assigns from its options. */
    var width: Value
    var height: Value
    /** The CSS `filter` and `-webkit-filter` properties of its style. */
    var filter: string
    var webkitFilter: string
    /** The CSS `transform` property of its style. */
    var transform: string
  }

  /** The hidden video element that plays the camera stream. */
  class Video {
    var width: Value
    var height: Value
    var volume: Value

    constructor (width: Value, height: Value)
      ensures this.width == width && this.height == height && volume == Num(1.0)
    {
      this.width, this.height := width, height;
      volume := Num(1.0);
    }
  }
}

=== FILE: pixels.dfy ===
/** The custom per-pixel filter: a nested row/column walk over an RGBA pixel
    buffer that hands each pixel to a caller-supplied function and writes the
    four channels it returns back into the same slots. Both builds run this
    loop; they differ only in what they throw when the function fails. */
module Pixels {
  import opened Js

  /** One slot of a `Uint8ClampedArray`. */
  type byte = x: int | 0 <= x < 256

  /** Storing an integer into a `Uint8ClampedArray` clamps it to 0..255. */
  function Clamp(v: int): (b: byte)
    ensures 0 <= v < 256 ==> b == v
    ensures v < 0 ==> b == 0
    ensures v > 255 ==> b == 255
  {
    if v < 0 then 0 else if v > 255 then 255 else v
  }

  /** The record passed to the custom filter for one pixel. */
  datatype Pixel = Pixel(offset: nat, x: nat, y: nat, red: byte, green: byte, blue: byte, alpha: byte)

  /** What one call of the custom filter does: it throws, or it returns an
      array whose entries 0 to 3 are read. A result that cannot be indexed
      (undefined, null) throws a TypeError there, so it is a `Threw`. */
  datatype Returned = Threw(error: Error) | Channels(red: int, green: int, blue: int, alpha: int)

  /** The value stored for channel `k` (0 red, 1 green, 2 blue, 3 alpha). A
      call that throws stores nothing, so its value 0 here is never used. */
  function Channel(r: Returned, k: nat): byte
    requires k < 4
  {
    if r.Threw? then 0
    else Clamp(if k == 0 then r.red else if k == 1 then r.green else if k == 2 then r.blue else r.alpha)
  }

  /** Image data read back from a canvas: `width * height` pixels, row by row,
      four slots each. */
  class ImageData {
    const width: nat
    const height: nat
    const data: array<byte>

    ghost predicate Valid() {
      data.Length == 4 * width * height
    }
  }

  /** The first slot of the pixel at column `x` of row `y`. */
  function Offset(width: nat, x: nat, y: nat): nat {
    ((width * y) + x) * 4
  }

  // ----- arithmetic of the row-major layout -----

  lemma MulMono(a: nat, b: nat, c: nat)
    requires b <= c
    ensures a * b <= a * c
  {}

  lemma MulSucc(a: nat, b: nat)
    ensures a * (b + 1) == a * b + a
  {}

  lemma DivModUnique(n: int, d: int, q: int, r: int)
    requires d > 0 && 0 <= r < d && n == d * q + r
    ensures n / d == q && n % d == r
  {
    var q', r' := n / d, n % d;
    assert d * (q - q') == r' - r;
    if q > q' {
      MulMono(d, 1, q - q');
    } else if q < q' {
      MulMono(d, 1, q' - q);
    }
  }

  /** Pixel `(x, y)` is pixel number `width * y + x`, which lies inside the
      image and whose column and row are recovered by `%` and `/`. */
  lemma RowMajor(width: nat, height: nat, x: nat, y: nat)
    requires x < width && y < height
    ensures width * y + x < width * height
    ensures (width * y + x) / width == y && (width * y + x) % width == x
  {
    MulMono(width, y + 1, height);
    DivModUnique(width * y + x, width, y, x);
  }

  /** Every pixel's offset is a multiple of 4 whose four slots lie inside the
      buffer. */
  lemma OffsetInBounds(width: nat, height: nat, x: nat, y: nat)
    requires x < width && y < height
    ensures Offset(width, x, y) % 4 == 0
    ensures Offset(width, x, y) + 3 < 4 * width * height
  {
    RowMajor(width, height, x, y);
  }

  /** Two different pixels have different offsets, so their four-slot groups
      are disjoint: no iteration writes another pixel's slots. */
  lemma OffsetsDistinct(width: nat, x1: nat, y1: nat, x2: nat, y2: nat)
    requires x1 < width && x2 < width
    requires Offset(width, x1, y1) == Offset(width, x2, y2)
    ensures x1 == x2 && y1 == y2
  {
    DivModUnique(width * y1 + x1, width, y1, x1);
    DivModUnique(width * y2 + x2, width, y2, x2);
  }

  /** Every pixel number below `width * height` is reached by exactly one
      `(x, y)` of the walk: the one whose offset is four times it. */
  lemma EveryPixelVisited(width: nat, height: nat, p: nat)
    requires p < width * height
    ensures width > 0 && p % width < width && p / width < height
    ensures Offset(width, p % width, p / width) == 4 * p
  {
    if p / width >= height {
      MulMono(width, height, p / width);
    }
  }

  // ----- pixel numbers, counted the way the walk counts them -----

  /** `a * b`, counted as `b` rows of `a` pixels. */
  function Times(a: nat, b: nat): nat {
    if b == 0 then 0 else Times(a, b - 1) + a
  }

  lemma {:induction false} TimesIsProduct(a: nat, b: nat)
    ensures Times(a, b) == a * b
  {
    if b > 0 {
      TimesIsProduct(a, b - 1);
      MulSucc(a, b - 1);
    }
  }

  lemma {:induction false} TimesMono(a: nat, b: nat, c: nat)
    requires b <= c
    ensures Times(a, b) <= Times(a, c)
  {
    if b < c {
      TimesMono(a, b, c - 1);
    }
  }

  /** Pixel number `width * y + x` sits in column `x` of row `y`. */
  lemma ColumnAndRow(width: nat, x: nat, y: nat, p: nat)
    requires x < width && p == Times(width, y) + x
    ensures p % width == x && p / width == y
  {
    TimesIsProduct(width, y);
    DivModUnique(p, width, y, x);
  }

  // ----- the specification of the walk -----

  /** The record the walk passes for pixel number `p` of the buffer `buf`. */
  function PixelAt(buf: seq<byte>, width: nat, p: nat): Pixel
    requires width > 0 && 4 * p + 4 <= |buf|
  {
    Pixel(4 * p, p % width, p / width, buf[4 * p], buf[4 * p + 1], buf[4 * p + 2], buf[4 * p + 3])
  }

  /** True iff the filter returns channels (does not throw) for each of the
      first `n` pixels, taken in order. */
  ghost predicate SucceedsUpTo(buf: seq<byte>, width: nat, f: Pixel -> Returned, n: nat)
    requires 4 * n <= |buf| && (n > 0 ==> width > 0)
  {
    n == 0 || (SucceedsUpTo(buf, width, f, n - 1) && f(PixelAt(buf, width, n - 1)).Channels?)
  }

  /** Each of the first `n` pixels succeeds when they succeed in order ... */
  lemma {:induction false} SucceedsBelow(buf: seq<byte>, width: nat, f: Pixel -> Returned, n: nat, p: nat)
    requires 4 * n <= |buf| && (n > 0 ==> width > 0)
    requires SucceedsUpTo(buf, width, f, n) && p < n
    ensures f(PixelAt(buf, width, p)).Channels?
  {
    if p < n - 1 {
      SucceedsBelow(buf, width, f, n - 1, p);
    }
  }

  /** ... and they succeed in order when each of them succeeds. */
  lemma {:induction false} SucceedsFromEach(buf: seq<byte>, width: nat, f: Pixel -> Returned, n: nat)
    requires 4 * n <= |buf| && (n > 0 ==> width > 0)
    requires forall p :: 0 <= p < n ==> f(PixelAt(buf, width, p)).Channels?
    ensures SucceedsUpTo(buf, width, f, n)
  {
    if n > 0 {
      SucceedsFromEach(buf, width, f, n - 1);
    }
  }

  /** Slot `i` of the buffer once the first `n` pixels have been processed:
      the channel the filter returned for its pixel if that pixel is among
      them, the original value otherwise. */
  ghost function Slot(buf: seq<byte>, width: nat, f: Pixel -> Returned, n: nat, i: nat): byte
    requires 4 * n <= |buf| && (n > 0 ==> width > 0) && i < |buf|
  {
    if i / 4 < n then Channel(f(PixelAt(buf, width, i / 4)), i % 4) else buf[i]
  }

  /** The buffer after the first `n` pixels of `buf` have been replaced by what
      the filter returns for their original values. */
  ghost function Transformed(buf: seq<byte>, width: nat, f: Pixel -> Returned, n: nat): (r: seq<byte>)
    requires 4 * n <= |buf| && (n > 0 ==> width > 0)
    ensures |r| == |buf|
  {
    seq(|buf|, i requires 0 <= i < |buf| => Slot(buf, width, f, n, i))
  }

  /** True iff the array holds the buffer after `n` pixels of `orig` have
      been processed. */
  ghost predicate Holds(data: array<byte>, orig: seq<byte>, width: nat, f: Pixel -> Returned, n: nat)
    requires 4 * n <= |orig| && (n > 0 ==> width > 0)
    reads data
  {
    data.Length == |orig| && forall i :: 0 <= i < |orig| ==> data[i] == Slot(orig, width, f, n, i)
  }

  /** Writes the four returned channels into the slots from `offset` on. */
  method StorePixel(data: array<byte>, offset: nat, filtered: Returned)
    requires filtered.Channels? && offset + 4 <= data.Length
    modifies data
    ensures data[..] == old(data[..])[offset := Channel(filtered, 0)][offset + 1 := Channel(filtered, 1)]
                                     [offset + 2 := Channel(filtered, 2)][offset + 3 := Channel(filtered, 3)]
  {
    data[offset] := Clamp(filtered.red);
    data[offset + 1] := Clamp(filtered.green);
    data[offset + 2] := Clamp(filtered.blue);
    data[offset + 3] := Clamp(filtered.alpha);
  }

  /** One iteration of the walk: pixel `(x, y)`, number `done`, is handed to
      `f` with its original colour; unless `f` throws, its four slots are
      rewritten, which extends the processed prefix by one pixel. */
  method VisitPixel(data: array<byte>, width: nat, f: Pixel -> Returned, x: nat, y: nat,
                    ghost orig: seq<byte>, ghost done: nat) returns (filtered: Returned)
    requires x < width && 4 * done + 4 <= |orig|
    requires done == Times(width, y) + x
    requires Holds(data, orig, width, f, done)
    modifies data
    ensures filtered == f(PixelAt(orig, width, done))
    ensures filtered.Threw? ==> Holds(data, orig, width, f, done)
    ensures filtered.Channels? ==> Holds(data, orig, width, f, done + 1)
  {
    ColumnAndRow(width, x, y, done);
    TimesIsProduct(width, y);
    var offset := ((width * y) + x) * 4;
    assert (offset + 1) / 4 == done && (offset + 2) / 4 == done && (offset + 3) / 4 == done;
    filtered := f(Pixel(offset, x, y, data[offset], data[offset + 1], data[offset + 2], data[offset + 3]));
    if filtered.Channels? {
      StorePixel(data, offset, filtered);
      forall i | 0 <= i < |orig|
        ensures data[i] == Slot(orig, width, f, done + 1, i)
      {
        if offset <= i < offset + 4 {
          assert i / 4 == done && i % 4 == i - offset;
        }
      }
    }
  }

  /** The nested walk over the `total` pixels of a `width` by `height` image. */
  method Walk(data: array<byte>, width: nat, height: nat, f: Pixel -> Returned,
              ghost orig: seq<byte>, ghost total: nat) returns (r: Outcome, ghost stop: nat)
    requires total == Times(width, height) && (total > 0 ==> width > 0) && |orig| == 4 * total
    requires Holds(data, orig, width, f, 0)
    modifies data
    ensures r.Pass? <==> SucceedsUpTo(orig, width, f, total)
    ensures r.Pass? ==> Holds(data, orig, width, f, total)
    ensures r.Fail? ==> stop < total && SucceedsUpTo(orig, width, f, stop)
                        && f(PixelAt(orig, width, stop)) == Threw(r.error)
                        && Holds(data, orig, width, f, stop)
  {
    ghost var done := 0;  // pixels processed so far
    var y := 0;
    while y < height
      invariant 0 <= y <= height
      invariant done == Times(width, y) && done <= total
      invariant SucceedsUpTo(orig, width, f, done)
      invariant Holds(data, orig, width, f, done)
    {
      TimesMono(width, y + 1, height);
      var x := 0;
      while x < width
        invariant 0 <= x <= width
        invariant done == Times(width, y) + x
        invariant SucceedsUpTo(orig, width, f, done)
        invariant Holds(data, orig, width, f, done)
      {
        var filtered := VisitPixel(data, width, f, x, y, orig, done);
        if filtered.Threw? {
          if SucceedsUpTo(orig, width, f, total) {
            SucceedsBelow(orig, width, f, total, done);
          }
          return Fail(filtered.error), done;
        }
        x := x + 1;
        done := done + 1;
      }
      y := y + 1;
    }
    return Pass, total;
  }

  /** An array that holds the processed buffer equals it. */
  lemma HoldsTransformed(data: array<byte>, orig: seq<byte>, width: nat, f: Pixel -> Returned, n: nat)
    requires 4 * n <= |orig| && (n > 0 ==> width > 0)
    requires Holds(data, orig, width, f, n)
    ensures data[..] == Transformed(orig, width, f, n)
  {
  }

  /** Walks the `width * height` pixels of `data` row by row, replacing each
      pixel's four slots by what `f` returns for it. The first call of `f`
      that throws stops the walk and its error is passed on; the pixels
      before it, numbered below `stop`, stay rewritten. */
  method TransformPixels(data: array<byte>, width: nat, height: nat, f: Pixel -> Returned)
    returns (r: Outcome, ghost stop: nat)
    requires data.Length == 4 * width * height
    modifies data
    ensures r.Pass? <==> SucceedsUpTo(old(data[..]), width, f, width * height)
    ensures r.Pass? ==> data[..] == Transformed(old(data[..]), width, f, width * height)
    ensures r.Fail? ==> stop < width * height && SucceedsUpTo(old(data[..]), width, f, stop)
                        && f(PixelAt(old(data[..]), width, stop)) == Threw(r.error)
                        && data[..] == Transformed(old(data[..]), width, f, stop)
  {
    ghost var orig := data[..];
    TimesIsProduct(width, height);
    r, stop := Walk(data, width, height, f, orig, width * height);
    if r.Pass? {
      HoldsTransformed(data, orig, width, f, width * height);
    } else {
      HoldsTransformed(data, orig, width, f, stop);
    }
  }

  /** After a walk that did not throw, the four slots of every pixel `(x, y)`
      hold the channels the filter returned for that pixel's original offset,
      coordinates and colour. */
  lemma TransformedAt(buf: seq<byte>, width: nat, height: nat, f: Pixel -> Returned, x: nat, y: nat, k: nat)
    requires |buf| == 4 * width * height && x < width && y < height && k < 4
    requires SucceedsUpTo(buf, width, f, width * height)
    ensures var off := Offset(width, x, y);
      off + 3 < |buf| &&
      var px := Pixel(off, x, y, buf[off], buf[off + 1], buf[off + 2], buf[off + 3]);
      f(px).Channels? && Transformed(buf, width, f, width * height)[off + k] == Channel(f(px), k)
  {
    var p := width * y + x;
    RowMajor(width, height, x, y);
    assert Offset(width, x, y) == 4 * p;
    SucceedsBelow(buf, width, f, width * height, p);
    assert (4 * p + k) / 4 == p && (4 * p + k) % 4 == k;
  }
}
